=== FILE: README.md ===
# Network throughput plugin, modelled in Dafny

This project models the Scout plugin `NetworkThroughput`. On each collection
tick, `build_report` reads the kernel's interface counter table, the text of
`/proc/net/dev`. It skips the two header lines. Each remaining line is split at
its first `:` into an interface name and a column text. For every interface
whose name passes the `interfaces` filter, the plugin feeds four counters
through `local_counter`:

- `<iface>_in` and `<iface>_out`: bytes, divided by 1024.0;
- `<iface>_in_packets` and `<iface>_out_packets`: packets, as counted.

Each counter is a rate per second, rounded to two digits. `local_counter` keeps
a per-key memory of the last `(time, value)`. It reports the rate of increase
since then, but only when the value did not drop and at least a second has
passed. Every call replaces the remembered baseline. When no interface matched,
the tick reports the error "No interfaces found" through Scout's `error`, which
raises nothing, and lists every name it read.

The project has five modules:

- `Optional` (`optional.dfy`): the option type.
- `RubyString` (`ruby_string.dfy`): the Ruby string operations the parser
  relies on, written as total functions on `seq<char>`. These are `strip`,
  `split("\n")`, `split(':', 2)`, `split(/\s+/)` and `to_i`. Each one is proved
  against its inverse or a characterisation.
- `RateCounter` (`rate_counter.dfy`): `local_counter` as a pure step. It takes
  the memory before a call to the value reported, if any, and the memory after
  the call.
- `Sampler` (`sampler.dfy`): the parsing half of `build_report`. The table
  text becomes the interface names in order, the samples of matching lines, and
  the crash that stopped the reading, if any.
- `NetworkThroughput` (`network_throughput.dfy`): one tick. `Tick` is the
  tick as "parse, then feed the samples' counters in order".
  `NetworkThroughput.BuildReport` is the plugin's own interleaved loop, and its
  contract proves it equal to `Tick`.

A tick's result has three parts:

- the reports made;
- the memory left for the next tick;
- the error reported, if any.

Reports and memory updates made before an error are kept, because Scout's
`report` and `remember` take effect when called.

Three behaviours of the code are worth stating:

- Short data lines. A line with fewer than ten columns is not a parse error.
  `values_at` yields nil for a missing column and `nil.to_i` is 0, so the
  missing counters read as 0.
- Apart from encoding errors, the per-line failure is a line whose name matches
  but that has no `:`.
  The column text is then nil, and `nil.split` raises. A text with fewer than
  two lines raises too, because `[2..-1]` is nil. An invalid `interfaces`
  option also raises, in `Regexp.compile`; see "## Left out".
- A tick is not all-or-nothing. When an exception is rescued and reported
  through `error`, the `local_counter` calls already made have reported and
  remembered.

## Model

| member | source | states |
|---|---|---|
| RubyString.StripSpec | network_throughput/network_throughput.rb:19 | `strip` cuts a trimmed piece out of its input, and the characters it drops at both ends are strip-space |
| RubyString.Strip | network_throughput/network_throughput.rb:19 | `String#strip`; specified by `RubyString.StripSpec`, `RubyString.StripPadded` and `RubyString.StripIdempotent` |
| RubyString.StripPadded | network_throughput/network_throughput.rb:19 | `strip` of a trimmed text padded with strip-space on both sides is that text |
| RubyString.StripIdempotent | network_throughput/network_throughput.rb:19 | stripping twice is stripping once |
| RubyString.StripWithin | network_throughput/network_throughput.rb:19 | a character absent from a string is absent from its stripped form |
| RubyString.TrimStartSpec | network_throughput/network_throughput.rb:19 | the left trim is the suffix left after the leading strip-space run; it starts with no strip-space |
| RubyString.TrimEndSpec | network_throughput/network_throughput.rb:19 | the right trim is the prefix left before the trailing strip-space run; it ends with no strip-space |
| RubyString.SplitOnceSpec | network_throughput/network_throughput.rb:19 | `split(':', 2)` gives no pieces exactly for "", one piece (the whole string) exactly when there is no `:`, else the parts before and after the first `:` around it |
| RubyString.SplitOnce | network_throughput/network_throughput.rb:19 | `split(':', 2)`; specified by `RubyString.SplitOnceSpec` and `RubyString.SplitOnceAt` |
| RubyString.SplitOnceAt | network_throughput/network_throughput.rb:19 | the split happens at the first `:`, whatever the rest holds |
| RubyString.Fields | network_throughput/network_throughput.rb:14 | splitting at a character gives at least one piece, and no piece holds the separator |
| RubyString.JoinFields | network_throughput/network_throughput.rb:14 | joining the pieces back with the separator gives the original text |
| RubyString.FieldsJoin | network_throughput/network_throughput.rb:33 | splitting a join gives the pieces back when none holds the separator |
| RubyString.SplitLines | network_throughput/network_throughput.rb:14 | `split("\n")` gives lines without newlines, the last one not empty |
| RubyString.DropTrailingEmpty | network_throughput/network_throughput.rb:14 | the trailing empty pieces are dropped, and only those |
| RubyString.SplitLinesJoin | network_throughput/network_throughput.rb:14 | `split("\n")` of lines joined by newlines gives the lines back, when the last is not empty |
| RubyString.SplitLinesJoinNewline | network_throughput/network_throughput.rb:14 | `split("\n")` of lines each ending in a newline, the last one included, gives the lines back when the last is not empty |
| RubyString.DropOneEmpty | network_throughput/network_throughput.rb:14 | the one empty piece a final newline leaves is dropped, and nothing before it |
| RubyString.JoinSnocEmpty | network_throughput/network_throughput.rb:14 | joining with one more empty piece appends one separator |
| RubyString.Join | network_throughput/network_throughput.rb:33 | `Array#join`; specified by `RubyString.JoinFields`, `RubyString.FieldsJoin`, `RubyString.SplitLinesJoinNewline` and `NetworkThroughput.MessageListsCandidates` |
| RubyString.Runs | network_throughput/network_throughput.rb:23 | the pieces between whitespace runs hold no whitespace, and only the first and last can be empty |
| RubyString.SplitWords | network_throughput/network_throughput.rb:23 | `split(/\s+/)` gives words without whitespace; only the first can be empty |
| RubyString.SplitWordsSpaced | network_throughput/network_throughput.rb:23 | splitting words laid out with any non-empty whitespace gaps gives the words back |
| RubyString.RunsSpaced | network_throughput/network_throughput.rb:23 | the whitespace runs of words laid out with gaps are exactly those words |
| RubyString.SpacedWithout | network_throughput/network_throughput.rb:23 | laying words out with gaps adds no character that neither the words nor the gaps hold |
| RubyString.ShowNat | network_throughput/network_throughput.rb:25 | a decimal numeral is a non-empty run of digits |
| RubyString.ToIShowInt | network_throughput/network_throughput.rb:25 | `to_i` reads back every integer from its decimal numeral, negative ones included |
| RubyString.ToI | network_throughput/network_throughput.rb:25 | `String#to_i`, total; specified by `RubyString.ToIShowInt` |
| RubyString.UnsignedShowNat | network_throughput/network_throughput.rb:25 | the digits of a numeral read back as the number |
| RubyString.ShowIntPlain | network_throughput/network_throughput.rb:23 | a numeral holds no whitespace and starts and ends with no strip-space |
| Sampler.ReadLineCases | network_throughput/network_throughput.rb:19-25 | a line gives a sample exactly when it has a `:` and its name matches; it raises exactly when it is not empty, has no `:` and its name matches; an empty line is an unmatched "" |
| Sampler.ReadLine | network_throughput/network_throughput.rb:19-25 | the loop body for one line; specified by `Sampler.ReadLineCases`, `Sampler.ReadLineName` and `Sampler.ReadCounterLine` |
| Sampler.ReadLineName | network_throughput/network_throughput.rb:19-20 | a line with a `:` is recorded under the stripped text before its first `:`, matching or not |
| Sampler.NameWithinLine | network_throughput/network_throughput.rb:19-20 | the recorded name is cut out of its line, so it holds no character the line lacks |
| Sampler.ReadCounterLine | network_throughput/network_throughput.rb:19-25 | a kernel-style line for a matching interface reads back its name and counters 0, 1, 8 and 9, with 0 for counters the line lacks |
| Sampler.CounterLineIsOneLine | network_throughput/network_throughput.rb:14 | a kernel-style line is not empty and holds no newline when its padding, name and gaps hold none |
| Sampler.NameField | network_throughput/network_throughput.rb:19 | the part of such a line before the `:` is the padded name, and it strips to the name |
| Sampler.CounterFields | network_throughput/network_throughput.rb:19-23 | the part after the `:` strips and splits into the counters' numerals |
| Sampler.NumeralColumns | network_throughput/network_throughput.rb:25 | `values_at(i)` then `to_i` on the numerals gives counter i, or 0 past the end |
| Sampler.Numerals | network_throughput/network_throughput.rb:25 | one numeral per counter, each the counter's decimal form |
| Sampler.Gather | network_throughput/network_throughput.rb:18-31 | the loop records at most one name per line, a name for every line when nothing raised, and never the missing-table crash |
| Sampler.GatherNames | network_throughput/network_throughput.rb:18-20 | every line read contributes its name in order, up to and including the one that raised |
| Sampler.GatherCrash | network_throughput/network_throughput.rb:19-23 | the loop raises exactly when some line is unreadable |
| Sampler.GatherFound | network_throughput/network_throughput.rb:21-25 | without a crash, there are samples exactly when some line matched, and each sample is one a matching line gave |
| Sampler.GatherAppend | network_throughput/network_throughput.rb:18-31 | the loop over a crash-free prefix followed by the rest is the two results put together |
| Sampler.GatherStops | network_throughput/network_throughput.rb:35-36 | nothing after the line that raised is read |
| Sampler.ReadLinesNames | network_throughput/network_throughput.rb:18-20 | the names are those of the lines read, in file order, matching or not |
| Sampler.ReadLines | network_throughput/network_throughput.rb:18-31 | the loop over the data lines; specified by `Sampler.ReadLinesNames`, `Sampler.ReadLinesStopLine`, `Sampler.ReadLinesCrash` and `Sampler.ReadLinesFound` |
| Sampler.ReadLinesStopLine | network_throughput/network_throughput.rb:19-23 | a crash names the last line read, and that line is unreadable |
| Sampler.ReadLinesCrash | network_throughput/network_throughput.rb:19-23 | reading raises exactly when some line is unreadable |
| Sampler.ReadLinesFound | network_throughput/network_throughput.rb:17-22 | without a crash, there are samples exactly when some line matched; each sample comes from a matching line |
| Sampler.ReadLinesAppend | network_throughput/network_throughput.rb:18-31 | reading is line by line: a crash-free prefix and the rest combine |
| Sampler.ReadLinesStops | network_throughput/network_throughput.rb:35-36 | reading stops at the first unreadable line |
| Sampler.ReadTable | network_throughput/network_throughput.rb:14 | the table raises for missing header lines exactly when the text has fewer than two lines; when nothing raised, every line after the two headers contributes a name |
| Sampler.ReadTableOneLine | network_throughput/network_throughput.rb:14-31 | a table of two header lines and one data line, each ending in a newline as the kernel writes them, reads as that data line alone, whatever the headers say |
| NetworkThroughput.CounterKeyInjective | network_throughput/network_throughput.rb:27-30 | the four keys `<iface>_in`, `_in_packets`, `_out`, `_out_packets` of distinct interfaces or directions never collide |
| NetworkThroughput.CounterKey | network_throughput/network_throughput.rb:27-30 | the key `"#{iface}_in"` and its siblings; specified by `NetworkThroughput.CounterKeyInjective` and `NetworkThroughput.EthKeys` |
| NetworkThroughput.KeysDiffer | network_throughput/network_throughput.rb:27-30 | distinct interface or direction gives a distinct key |
| NetworkThroughput.SuffixesDoNotNest | network_throughput/network_throughput.rb:27-30 | no counter suffix ends another one |
| NetworkThroughput.EthKeys | network_throughput/network_throughput.rb:27-30 | the keys of `eth0` are `eth0_in`, `eth0_in_packets`, `eth0_out` and `eth0_out_packets` |
| NetworkThroughput.CounterValue | network_throughput/network_throughput.rb:25-30 | the value fed for a direction; specified by `NetworkThroughput.SampleValues` |
| NetworkThroughput.SampleObservations | network_throughput/network_throughput.rb:25-30 | the four calls one sample makes; specified by `NetworkThroughput.SampleValues` and `NetworkThroughput.FeedCounters` |
| NetworkThroughput.SampleValues | network_throughput/network_throughput.rb:25-30 | a matching interface feeds each of its four keys once: bytes in KB (column / 1024.0) and packets as counted |
| NetworkThroughput.Observations | network_throughput/network_throughput.rb:27-30 | four calls per matching interface |
| NetworkThroughput.ObservedFirst | network_throughput/network_throughput.rb:27-30 | the first call for a counter of an interface carries that interface's value when no earlier line has the same name |
| NetworkThroughput.ObservedLast | network_throughput/network_throughput.rb:27-30 | the last call for a counter carries the value of the last line with that name |
| NetworkThroughput.ObservedKeys | network_throughput/network_throughput.rb:27-30 | every key fed is a counter of some matching interface |
| NetworkThroughput.NotObserved | network_throughput/network_throughput.rb:27-30 | a key that is no counter of a matching interface is never fed |
| NetworkThroughput.CounterCall | network_throughput/network_throughput.rb:27-30 | one call reports at most once, and only under its own key |
| NetworkThroughput.Run | network_throughput/network_throughput.rb:27-30 | after the calls, the memory holds the old keys plus exactly the keys called |
| NetworkThroughput.FirstValue | network_throughput/network_throughput.rb:27-30 | a key has a first call exactly when it is called |
| NetworkThroughput.LastValue | network_throughput/network_throughput.rb:27-30 | a key has a last call exactly when it is called |
| NetworkThroughput.RunMemory | network_throughput/network_throughput.rb:71 | after the calls, every key called holds `now` and its last value; every other key keeps its baseline |
| NetworkThroughput.ObserveLocal | network_throughput/network_throughput.rb:44-50 | what a call reports depends only on the baseline of its own key |
| NetworkThroughput.FirstCallRate | network_throughput/network_throughput.rb:44-50 | a key can have a rate only when it was remembered and is called |
| NetworkThroughput.RunReports | network_throughput/network_throughput.rb:27-30 | each report of a run is the rate of its key's first call against the baseline before the tick; no key is reported twice; every key that has such a rate is reported |
| NetworkThroughput.RunAppend | network_throughput/network_throughput.rb:27-30 | calls made one after another: the later calls continue from the memory the earlier ones left |
| NetworkThroughput.RunSnoc | network_throughput/network_throughput.rb:27-30 | one more call continues the run from the memory it left |
| NetworkThroughput.ObservationsAppend | network_throughput/network_throughput.rb:18-30 | the calls for two runs of lines are the calls of each, in order |
| NetworkThroughput.FeedCounters | network_throughput/network_throughput.rb:27-30 | the four calls for one interface, made one by one, give the reports and memory of the run over its four observations |
| NetworkThroughput.FeedTail | network_throughput/network_throughput.rb:18-30 | feeding one more interface continues from where the run stood |
| NetworkThroughput.FirstFeedReportsNothing | network_throughput/network_throughput.rb:44 | with nothing remembered, feeding any interfaces reports nothing |
| NetworkThroughput.RunWithoutBaselines | network_throughput/network_throughput.rb:44-50 | calls for keys that have no baseline at least a second old report nothing |
| NetworkThroughput.FeedReports | network_throughput/network_throughput.rb:27-30 | feeding reports each key at most once; every rate is non-negative, rounded to two digits, and belongs to a counter of a matching interface |
| NetworkThroughput.FeedRate | network_throughput/network_throughput.rb:27-30 | a counter is reported exactly when a baseline exists, its value did not drop and a second has passed; the rate is the increase over the elapsed time, rounded to two digits |
| NetworkThroughput.FeedMemory | network_throughput/network_throughput.rb:71 | after feeding, each counter holds `now` and its interface's last value |
| NetworkThroughput.FeedKeepsOtherKeys | network_throughput/network_throughput.rb:71 | remembered keys that are no counter of a matching interface are left as they were |
| NetworkThroughput.ReadNextLine | network_throughput/network_throughput.rb:18-25 | reading one more line extends the names, and the samples when the line matched; an unreadable line is the crash |
| NetworkThroughput.ReadStopsAtCrash | network_throughput/network_throughput.rb:35-36 | a crash at a line ends the reading there |
| NetworkThroughput.BuildReport | network_throughput/network_throughput.rb:13-37 | the plugin's single loop gives what parsing the whole table and then feeding the samples gives |
| NetworkThroughput.Tick | network_throughput/network_throughput.rb:13-37 | one tick as parse, then feed; specified by `NetworkThroughput.BuildReport`, `NetworkThroughput.NoInterfacesFoundIff`, `NetworkThroughput.TickRaisesIff` and `NetworkThroughput.FirstTickReportsNothing` |
| NetworkThroughput.FirstTickReportsNothing | network_throughput/network_throughput.rb:44 | on the first tick, with nothing remembered, nothing is reported |
| NetworkThroughput.NoInterfacesInLines | network_throughput/network_throughput.rb:17-33 | over the data lines, "No interfaces found" is reported exactly when every line is read without matching, and then it lists every line's name |
| NetworkThroughput.NoInterfacesFoundIff | network_throughput/network_throughput.rb:17-33 | "No interfaces found" is reported exactly when the header lines are there and no data line matched |
| NetworkThroughput.FaultOf | network_throughput/network_throughput.rb:32-36 | the error a parsed table reports; specified by `NetworkThroughput.NoInterfacesInLines`, `NetworkThroughput.NoInterfacesFoundIff` and `NetworkThroughput.TickRaisesIff` |
| NetworkThroughput.NoInterfacesFoundLists | network_throughput/network_throughput.rb:32-33 | that error lists the name of every data line, in order |
| NetworkThroughput.NoInterfacesFoundSilent | network_throughput/network_throughput.rb:32-33 | when that error is reported, nothing is reported and the memory is unchanged |
| NetworkThroughput.TickRaisesIff | network_throughput/network_throughput.rb:35-36 | the parsing raises, and the rescue reports the exception, exactly when the header lines are missing or some data line is unreadable |
| NetworkThroughput.MessageListsCandidates | network_throughput/network_throughput.rb:33 | the message is the fixed preamble followed by the candidates, and the part after the preamble splits back into them line by line |
| NetworkThroughput.NoInterfacesMessage | network_throughput/network_throughput.rb:33 | the text of the "No interfaces found" error; specified by `NetworkThroughput.MessageListsCandidates` |
| NetworkThroughput.TickMessageLists | network_throughput/network_throughput.rb:33 | a tick's candidate names hold no newline, so its message lists each one on its own line |
| NetworkThroughput.CallWholeRate | network_throughput/network_throughput.rb:27-30 | a call whose rate is a whole number reports exactly that number and leaves other keys alone |
| NetworkThroughput.RunWholeRates | network_throughput/network_throughput.rb:27-30 | calls for distinct keys whose rates are whole numbers report those numbers, in call order |
| NetworkThroughput.TwoTicks | network_throughput/network_throughput.rb:27-30 | two ticks 2 s apart: the first only remembers; the second reports 1.0 KB/s and 2.0 packets/s received and 0.0 for an idle direction |
| NetworkThroughput.TwoTicksOnText | network_throughput/network_throughput.rb:13-37 | the same two ticks given as the text of `/proc/net/dev`, every line ending in a newline, whatever its header lines, through `Tick`: no error, nothing reported at first, then 1.0, 2.0, 0.0 and 0.0 |
| NetworkThroughput.DevTick | network_throughput/network_throughput.rb:13-37 | a tick over a newline-terminated table with one `eth0` line feeds `eth0`'s counters 0, 1, 8 and 9 and reports no error |
| NetworkThroughput.TickOneInterface | network_throughput/network_throughput.rb:13-37 | a tick over two header lines and one kernel-style line for a matching interface, every line ending in a newline, feeds that interface's four counters and reports no error |
| NetworkThroughput.SecondTick | network_throughput/network_throughput.rb:27-30 | the second tick of that example, for any interface name |
| NetworkThroughput.SecondTickObservations | network_throughput/network_throughput.rb:25-30 | the calls of that sample: 3 KB, 14 packets, 2 KB, 20 packets |
| NetworkThroughput.SecondTickRun | network_throughput/network_throughput.rb:27-30 | those calls, against the first tick's baselines, report 1.0, 2.0, 0.0 and 0.0 |
| RateCounter.Pow10 | network_throughput/network_throughput.rb:64 | `10 ** d` is positive |
| RateCounter.RoundHalfAway | network_throughput/network_throughput.rb:64 | `round` gives the nearest integer, ties away from zero |
| RateCounter.RoundAt | network_throughput/network_throughput.rb:64 | rounding at the scale p; specified by `RateCounter.RoundAtSpec`, `RateCounter.RoundAtExact` and `RateCounter.RoundedNear` |
| RateCounter.RoundTo | network_throughput/network_throughput.rb:64 | `Float#round(d)`; specified by `RateCounter.RoundToSpec`, `RateCounter.RoundToIdempotent`, `RateCounter.RoundExact` and `RateCounter.TieRoundsAway` |
| RateCounter.DigitCount | network_throughput/network_throughput.rb:60-65 | the digits the `:round` option asks for; specified by `RateCounter.LegacyRoundIsOneDigit` |
| RateCounter.Rounded | network_throughput/network_throughput.rb:60-65 | the rounding step of `local_counter`; specified by `RateCounter.ObserveRoundsAt`, `RateCounter.RoundedRate` and `RateCounter.LegacyRoundIsOneDigit` |
| RateCounter.Reportable | network_throughput/network_throughput.rb:44-50 | the condition under which a call reports; specified by `RateCounter.Observe` and `NetworkThroughput.FeedRate` |
| RateCounter.RoundWhole | network_throughput/network_throughput.rb:64 | a whole number rounds to itself |
| RateCounter.RoundAtSpec | network_throughput/network_throughput.rb:64 | scaled back up, the rounded rate is a whole number within 0.5 of the scaled rate, and it is non-negative for a non-negative rate |
| RateCounter.RoundAtExact | network_throughput/network_throughput.rb:64 | a whole number of steps is left as it is |
| RateCounter.RoundToSpec | network_throughput/network_throughput.rb:64 | rounding to d digits moves the rate by at most 0.5 / 10^d, and keeps it non-negative |
| RateCounter.Scaled | network_throughput/network_throughput.rb:51-58 | per second, the rate times the elapsed time is the increase; per minute, times 60 as well; otherwise the bare increase; never negative for an increase |
| RateCounter.Observe | network_throughput/network_throughput.rb:41-72 | a call reports exactly when its key is remembered, the value did not drop and a second has passed; it remembers `(now, value)` for its key and leaves every other key unchanged |
| RateCounter.ObserveNonnegative | network_throughput/network_throughput.rb:50-65 | a reported rate is never negative, whatever the unit and rounding |
| RateCounter.FirstObservation | network_throughput/network_throughput.rb:44 | the first call for a key reports nothing and only records the baseline |
| RateCounter.WrapReportsNothing | network_throughput/network_throughput.rb:48-50 | a value that dropped reports nothing, yet becomes the new baseline |
| RateCounter.PerSecondRate | network_throughput/network_throughput.rb:53-55 | without rounding, the per-second rate times the elapsed time is the increase |
| RateCounter.PerMinuteRate | network_throughput/network_throughput.rb:56-57 | without rounding, the per-minute rate is the per-second rate divided by 60 |
| RateCounter.ObserveRoundsAt | network_throughput/network_throughput.rb:60-65 | with `:round => d`, the rate is rounded at scale 10^d |
| RateCounter.RoundedRate | network_throughput/network_throughput.rb:60-65 | with `:round => d`, the reported rate is already rounded to d digits, and lies within 0.5 / 10^d of the unrounded rate |
| RateCounter.RoundedNear | network_throughput/network_throughput.rb:64 | rounding at a scale gives a fixed point of that rounding within half a step of the raw value |
| RateCounter.PerSecondToTwoDigits | network_throughput/network_throughput.rb:27-30 | the call `build_report` makes reports the increase over the elapsed time, rounded to two digits |
| RateCounter.LegacyRoundIsOneDigit | network_throughput/network_throughput.rb:62 | `:round => true` behaves exactly as `:round => 1` |
| RateCounter.RoundToIdempotent | network_throughput/network_throughput.rb:64 | rounding a rounded rate again changes nothing |
| RateCounter.RoundExact | network_throughput/network_throughput.rb:64 | a value that is a whole number of steps 10^-d is left as it is |
| RateCounter.WholeAtTwoDigits | network_throughput/network_throughput.rb:64 | whole numbers need no rounding to two digits |
| RateCounter.TieRoundsAway | network_throughput/network_throughput.rb:64 | with exact arithmetic, 1.005 rounds to 1.01 at two digits |

## Left out

- Reading `/proc/net/dev` by shelling out to `cat` (line 14): the table's text is an input of `Tick` and `BuildReport`.
- `Time.now` (line 42): the time is the parameter `now`, in seconds. One tick passes the same `now` to all its calls; the plugin reads the clock once per call, a few microseconds apart. With the memory assumption stated below, a second call for the same key within a tick (two lines with one name) sees the `now` the first call remembered, an elapsed time of 0, and so reports nothing in the model.
- The `interfaces` option and regular-expression compilation and matching (lines 15 and 21): the filter is an arbitrary predicate `matches` on names. The regular expression's printed form in the error message is the parameter `shown`.
- Scout's `memory`, `remember`, `report` and `error` calls: the memory is a map, and reports, the new memory and the error are returned values. Scout's client is not part of this model; its memory semantics are assumed, in two points: a `remember` made earlier in a tick is seen by a later `memory` of the same key in that tick, and a key not remembered in a tick keeps its value for the next tick. Under the other reading, where `memory` returns the previous run's snapshot and only what a run remembers persists, two lines with one name would both report against the old baseline, and a tick that reports "No interfaces found" would empty the memory.
- NetworkThroughput.RunMemory: states the memory after a tick under the assumed `memory`/`remember` semantics above (earlier `remember` visible within the tick, other keys kept).
- NetworkThroughput.RunReports: states the reports under the same assumption; with snapshot semantics a duplicate name would report once per line rather than once per key.
- NetworkThroughput.FeedKeepsOtherKeys: holds under the assumption that keys not remembered in a tick survive it; with snapshot semantics they would be dropped.
- NetworkThroughput.NoInterfacesFoundSilent: "the memory is unchanged" relies on the same assumption; with snapshot semantics such a tick would leave the memory empty.
- Byte-level text encoding: text is modelled as characters. A line of `/proc/net/dev` can hold bytes that are invalid in the external encoding, since Linux allows any byte except `/`, `:` and whitespace in an interface name. On such a line Ruby raises `ArgumentError` at the regular-expression match (line 21), even for a name that would not match, and again at `split(/\s+/)` (line 23), and the rescue at lines 35-36 reports it. The model has no such error: an unmatched line never raises there.
- Ruby Floats: rates are exact reals. IEEE rounding is not modelled. For example, the Float product `1.005 * 100` is 100.49999999999999, so the plugin reports 1.0 where the model, by `RateCounter.TieRoundsAway`, gives 1.01.
- The text of a rescued exception (line 36): the class name, message and backtrace become a `Crash` value, naming either the missing table or the line whose column text was nil.
- The `OPTIONS` text (lines 6-11) is documentation only. Its "maximum of 5 interfaces" is not enforced by the code.
- RubyString.ToI: the optional `0d` prefix that `String#to_i` accepts is not modelled; the model reads it as 0. Leading whitespace, a sign, decimal digits and single underscores between digits are modelled, which covers every numeral the kernel writes.
- `Regexp.compile` (line 15) raises `RegexpError` for an invalid `interfaces` option on every tick, and the rescue at lines 35-36 reports it. The filter here is a total predicate, so this error has no counterpart in the model.
- An exception raised outside the parsing (by Scout's own calls, or by arithmetic on non-numbers) cannot occur with the types in this model.

=== FILE: network_throughput.dfy ===
/**
  `build_report` of the network-throughput plugin: one collection tick reads the
  counter table, feeds four counters per matching interface through
  `local_counter` (per second, two digits), and reports the error "No interfaces found"
  when no interface matched. A tick is modelled as a pure function from the
  memory before it to the reports, the memory after it, and the error it
  reported, if any.
 */
module NetworkThroughput {
  import opened Optional
  import opened RubyString
  import opened RateCounter
  import opened Sampler
  import opened Sequences

  // ---------------------------------------------------------------- counter keys

  /** The four counters the plugin tracks for each interface. */
  datatype Direction = In | InPackets | Out | OutPackets

  function Suffix(d: Direction): string {
    match d
    case In => "_in"
    case InPackets => "_in_packets"
    case Out => "_out"
    case OutPackets => "_out_packets"
  }

  /** The memory and report key of one counter: `"#{iface}_in"` and its siblings. */
  function CounterKey(iface: string, d: Direction): string {
    iface + Suffix(d)
  }

  /** No suffix ends another one, so a key names one interface and one direction. */
  lemma SuffixesDoNotNest(d: Direction, e: Direction, t: string)
    ensures Suffix(d) == t + Suffix(e) ==> t == "" && d == e
  {
    var sd, se := Suffix(d), Suffix(e);
    assert (t + se)[|t + se| - 1] == se[|se| - 1];
    if |t| == 1 {
      assert (t + se)[1] == se[0];
    }
  }

  /** Different interfaces or directions never share a key. */
  lemma CounterKeyInjective(a: string, d: Direction, b: string, e: Direction)
    requires CounterKey(a, d) == CounterKey(b, e)
    ensures a == b && d == e
  {
    var k := CounterKey(a, d);
    if |a| <= |b| {
      assert b == a + k[|a|..|b|] by {
        assert b == k[..|b|];
        assert a == k[..|a|];
      }
      assert Suffix(d) == k[|a|..] == k[|a|..|b|] + Suffix(e);
      SuffixesDoNotNest(d, e, k[|a|..|b|]);
    } else {
      assert a == b + k[|b|..|a|] by {
        assert b == k[..|b|];
        assert a == k[..|a|];
      }
      assert Suffix(e) == k[|b|..] == k[|b|..|a|] + Suffix(d);
      SuffixesDoNotNest(e, d, k[|b|..|a|]);
    }
  }

  /** The value fed for one counter: bytes in kilobytes (`/ 1024.0`), packets as counted. */
  function CounterValue(s: Sample, d: Direction): real {
    match d
    case In => s.inBytes as real / 1024.0
    case InPackets => s.inPackets as real
    case Out => s.outBytes as real / 1024.0
    case OutPackets => s.outPackets as real
  }

  // ---------------------------------------------------------------- feeding counters

  /** One `local_counter` call to be made: which key, and what value. */
  datatype Observation = Observation(key: string, value: real)

  /** The four calls made for one matching interface, in the order the plugin makes them. */
  function SampleObservations(s: Sample): seq<Observation> {
    [Observation(CounterKey(s.name, In), CounterValue(s, In)),
     Observation(CounterKey(s.name, InPackets), CounterValue(s, InPackets)),
     Observation(CounterKey(s.name, Out), CounterValue(s, Out)),
     Observation(CounterKey(s.name, OutPackets), CounterValue(s, OutPackets))]
  }

  /** All calls of a tick: four per sample, samples in file order. */
  function Observations(samples: seq<Sample>): (obs: seq<Observation>)
    ensures |obs| == 4 * |samples|
  {
    if |samples| == 0 then [] else SampleObservations(samples[0]) + Observations(samples[1..])
  }

  /** One reported rate: `report(name => rate)`. */
  datatype Report = Report(key: string, rate: real)

  /** Reports made so far, and the memory they leave. */
  datatype RunResult = RunResult(reports: seq<Report>, memory: Memory)

  /** The set of keys among `obs`. */
  function KeysOf(obs: seq<Observation>): set<string>
    decreases |obs|
  {
    if |obs| == 0 then {} else {obs[0].key} + KeysOf(obs[1..])
  }

  /** The set of keys among `reports`. */
  function ReportedKeys(reports: seq<Report>): set<string> {
    set i | 0 <= i < |reports| :: reports[i].key
  }

  /** One call as `build_report` makes it: per second, rounded to two digits. */
  function CounterCall(m: Memory, o: Observation, now: real): (f: RunResult)
    ensures |f.reports| <= 1
    ensures forall i :: 0 <= i < |f.reports| ==> f.reports[i].key == o.key
  {
    var step := Observe(m, o.key, o.value, now, PerSecond, Digits(2));
    RunResult(if step.reported.Some? then [Report(o.key, step.reported.value)] else [], step.memory)
  }

  /** The calls `obs` made in order, all at `now`. The memory afterwards holds
      the old keys and every key observed. */
  function Run(m: Memory, obs: seq<Observation>, now: real): (f: RunResult)
    ensures f.memory.Keys == m.Keys + KeysOf(obs)
    decreases |obs|
  {
    if |obs| == 0 then RunResult([], m)
    else
      var first := CounterCall(m, obs[0], now);
      var rest := Run(first.memory, obs[1..], now);
      RunResult(first.reports + rest.reports, rest.memory)
  }

  /** The value of the first call for `key` among `obs`, if any. */
  function FirstValue(obs: seq<Observation>, key: string): (v: Option<real>)
    ensures v.Some? <==> key in KeysOf(obs)
    decreases |obs|
  {
    if |obs| == 0 then None
    else if obs[0].key == key then Some(obs[0].value)
    else FirstValue(obs[1..], key)
  }

  /** The value of the last call for `key` among `obs`, if any. */
  function LastValue(obs: seq<Observation>, key: string): (v: Option<real>)
    ensures v.Some? <==> key in KeysOf(obs)
    decreases |obs|
  {
    if |obs| == 0 then None
    else
      match LastValue(obs[1..], key)
      case Some(v) => Some(v)
      case None => if obs[0].key == key then Some(obs[0].value) else None
  }

  /** After the calls, each observed key holds `now` and its last value, and every
      other key keeps its baseline. */
  lemma {:induction false} RunMemory(m: Memory, obs: seq<Observation>, now: real, key: string)
    ensures var f := Run(m, obs, now);
            LastValue(obs, key).Some? ==> key in f.memory && f.memory[key] == Baseline(now, LastValue(obs, key).value)
    ensures var f := Run(m, obs, now);
            key in m && LastValue(obs, key).None? ==> key in f.memory && f.memory[key] == m[key]
    decreases |obs|
  {
    if |obs| > 0 {
      var first := CounterCall(m, obs[0], now);
      RunMemory(first.memory, obs[1..], now, key);
    }
  }

  /** What a tick reports for `key`: the first call for it, rated against the
      baseline from before the tick. */
  function FirstCallRate(m: Memory, obs: seq<Observation>, key: string, now: real): (r: Option<real>)
    ensures r.Some? ==> key in m && key in KeysOf(obs)
  {
    match FirstValue(obs, key)
    case None => None
    case Some(v) => Observe(m, key, v, now, PerSecond, Digits(2)).reported
  }

  /** Only the baseline of `key` matters to what observing `key` reports. */
  lemma ObserveLocal(m: Memory, m': Memory, key: string, v: real, now: real)
    requires key in m <==> key in m'
    requires key in m ==> m[key] == m'[key]
    ensures Observe(m, key, v, now, PerSecond, Digits(2)).reported
         == Observe(m', key, v, now, PerSecond, Digits(2)).reported
  {
  }

  /** Every report of a run is the rate `FirstCallRate` gives for its key, each key
      is reported at most once, and every key with an expected rate is reported:
      later calls for a key within the same tick see a zero interval and report
      nothing. */
  lemma {:induction false} RunReports(m: Memory, obs: seq<Observation>, now: real)
    ensures forall i :: 0 <= i < |Run(m, obs, now).reports| ==>
              FirstCallRate(m, obs, Run(m, obs, now).reports[i].key, now) == Some(Run(m, obs, now).reports[i].rate)
    ensures forall i, j :: 0 <= i < j < |Run(m, obs, now).reports| ==>
              Run(m, obs, now).reports[i].key != Run(m, obs, now).reports[j].key
    ensures forall key :: FirstCallRate(m, obs, key, now).Some? ==> key in ReportedKeys(Run(m, obs, now).reports)
    decreases |obs|
  {
    if |obs| > 0 {
      var o := obs[0];
      var first := CounterCall(m, o, now);
      var m' := first.memory;
      var rest := Run(m', obs[1..], now);
      var f := Run(m, obs, now);
      RunReports(m', obs[1..], now);
      assert f.reports == first.reports + rest.reports;
      assert FirstCallRate(m', obs[1..], o.key, now).None? by {
        if FirstValue(obs[1..], o.key).Some? {
          assert !Reportable(m', o.key, FirstValue(obs[1..], o.key).value, now);
        }
      }
      forall key | key != o.key
        ensures FirstCallRate(m', obs[1..], key, now) == FirstCallRate(m, obs, key, now)
      {
        if FirstValue(obs, key).Some? {
          ObserveLocal(m, m', key, FirstValue(obs, key).value, now);
        }
      }
      forall i | 0 <= i < |f.reports|
        ensures FirstCallRate(m, obs, f.reports[i].key, now) == Some(f.reports[i].rate)
      {
        if i >= |first.reports| {
          var k := i - |first.reports|;
          assert 0 <= k < |rest.reports|;
          var r := rest.reports[k];
          assert f.reports[i] == r;
          assert FirstCallRate(m', obs[1..], r.key, now) == Some(r.rate);
          assert r.key != o.key;
          assert FirstCallRate(m', obs[1..], r.key, now) == FirstCallRate(m, obs, r.key, now);
        } else {
          assert FirstValue(obs, o.key) == Some(o.value);
          assert f.reports[i] == first.reports[0];
        }
      }
      forall i, j | 0 <= i < j < |f.reports|
        ensures f.reports[i].key != f.reports[j].key
      {
        assert f.reports[j] == rest.reports[j - |first.reports|];
        if i < |first.reports| {
          assert FirstCallRate(m', obs[1..], f.reports[j].key, now).Some?;
        } else {
          assert f.reports[i] == rest.reports[i - |first.reports|];
        }
      }
      forall key | FirstCallRate(m, obs, key, now).Some?
        ensures key in ReportedKeys(f.reports)
      {
        if key == o.key {
          assert f.reports[0].key == key;
        } else {
          var k :| 0 <= k < |rest.reports| && rest.reports[k].key == key;
          assert f.reports[|first.reports| + k].key == key;
        }
      }
    }
  }

  /** Calls made one after another: the run over `a + b` is the run over `a`
      followed by the run over `b` from the memory `a` left behind. */
  lemma {:induction false} RunAppend(m: Memory, a: seq<Observation>, b: seq<Observation>, now: real)
    ensures var fa := Run(m, a, now);
            var fb := Run(fa.memory, b, now);
            Run(m, a + b, now) == RunResult(fa.reports + fb.reports, fb.memory)
    decreases |a|
  {
    if |a| == 0 {
      assert a + b == b;
    } else {
      assert (a + b)[0] == a[0];
      assert (a + b)[1..] == a[1..] + b;
      var first := CounterCall(m, a[0], now);
      RunAppend(first.memory, a[1..], b, now);
      var fa' := Run(first.memory, a[1..], now);
      var fb := Run(fa'.memory, b, now);
      ConcatAssoc(first.reports, fa'.reports, fb.reports);
    }
  }

  lemma {:induction false} ObservationsAppend(a: seq<Sample>, b: seq<Sample>)
    ensures Observations(a + b) == Observations(a) + Observations(b)
    decreases |a|
  {
    if |a| == 0 {
      assert a + b == b;
    } else {
      assert (a + b)[0] == a[0];
      assert (a + b)[1..] == a[1..] + b;
      ObservationsAppend(a[1..], b);
    }
  }

  /** One more call continues the run from the memory it left. */
  lemma RunSnoc(m: Memory, a: seq<Observation>, o: Observation, now: real)
    ensures var fa := Run(m, a, now);
            var c := CounterCall(fa.memory, o, now);
            Run(m, a + [o], now) == RunResult(fa.reports + c.reports, c.memory)
  {
    RunAppend(m, a, [o], now);
    var fa := Run(m, a, now);
    var c := CounterCall(fa.memory, o, now);
    assert [o][1..] == [];
    assert Run(fa.memory, [o], now) == RunResult(c.reports + [], c.memory);
    assert c.reports + [] == c.reports;
  }

  // ---------------------------------------------------------------- one tick

  /** Why a tick ended in `error(...)`: no interface matched (with every interface
      name read, for the message), or the parsing raised. */
  datatype Fault = NoInterfacesFound(candidates: seq<string>) | Raised(crash: Crash)

  /** The outcome of one `build_report`: the reports made, the memory left for the
      next tick, and the error reported, if any. Reports and memory updates made
      before a crash are kept. */
  datatype TickResult = TickResult(reports: seq<Report>, memory: Memory, fault: Option<Fault>)

  function FaultOf(t: Table): Option<Fault> {
    if t.crash.Some? then Some(Raised(t.crash.value))
    else if |t.samples| == 0 then Some(NoInterfacesFound(t.names))
    else None
  }

  /** One tick over the text of `/proc/net/dev`, with `matches` the interface filter. */
  function Tick(m: Memory, text: string, matches: string -> bool, now: real): TickResult {
    var table := ReadTable(text, matches);
    var fed := Run(m, Observations(table.samples), now);
    TickResult(fed.reports, fed.memory, FaultOf(table))
  }

  /** Reading one more line extends the names, and the samples when it matched;
      an unreadable line is the crash. */
  lemma ReadNextLine(lines: seq<string>, i: nat, matches: string -> bool)
    requires i < |lines| && ReadLines(lines[..i], matches).crash.None?
    ensures var done := ReadLines(lines[..i], matches);
            var one := Contribution(lines[i], ReadLine(lines[i], matches));
            ReadLines(lines[..i + 1], matches)
              == Table(done.names + one.names, done.samples + one.samples, one.crash)
  {
    assert lines[..i + 1] == lines[..i] + [lines[i]];
    ReadLinesAppend(lines[..i], [lines[i]], matches);
    ReadOneLine(lines[i], matches);
  }

  /** A crash at line `i` ends the reading there. */
  lemma ReadStopsAtCrash(lines: seq<string>, i: nat, matches: string -> bool)
    requires i < |lines| && ReadLines(lines[..i + 1], matches).crash.Some?
    ensures ReadLines(lines, matches) == ReadLines(lines[..i + 1], matches)
  {
    assert lines == lines[..i + 1] + lines[i + 1..];
    ReadLinesStops(lines[..i + 1], lines[i + 1..], matches);
  }

  /** `build_report` as the plugin writes it: one pass over the data lines that
      reads a line and feeds its four counters before reading the next. */
  method BuildReport(m: Memory, text: string, matches: string -> bool, now: real) returns (t: TickResult)
    ensures t == Tick(m, text, matches, now)
  {
    var all := SplitLines(text);
    if |all| < 2 {
      return TickResult([], m, Some(Raised(NoTable)));
    }
    var lines := all[2..];
    var interfaces: seq<string> := [];
    var found := false;
    var reports: seq<Report> := [];
    var memory := m;
    ghost var samples: seq<Sample> := [];
    var i := 0;
    while i < |lines|
      invariant 0 <= i <= |lines|
      invariant ReadLines(lines[..i], matches) == Table(interfaces, samples, None)
      invariant found <==> |samples| > 0
      invariant Run(m, Observations(samples), now) == RunResult(reports, memory)
    {
      var line := lines[i];
      var r := ReadLine(line, matches);
      ReadNextLine(lines, i, matches);
      interfaces := interfaces + [NameOf(r)];
      match r {
        case Unmatched(_) =>
          assert samples + [] == samples;
        case Unreadable(_) =>
          assert samples + [] == samples;
          ReadStopsAtCrash(lines, i, matches);
          assert ReadTable(text, matches) == Table(interfaces, samples, Some(NoColumns(line)));
          return TickResult(reports, memory, Some(Raised(NoColumns(line))));
        case Matched(s) =>
          found := true;
          var more, next := FeedCounters(memory, s, now);
          FeedTail(m, samples, s, now);
          reports, memory := reports + more, next;
          samples := samples + [s];
      }
      i := i + 1;
    }
    assert lines[..i] == lines;
    if !found {
      return TickResult(reports, memory, Some(NoInterfacesFound(interfaces)));
    }
    return TickResult(reports, memory, None);
  }

  /** The four `local_counter` calls for one matching interface, in the plugin's order. */
  method FeedCounters(m: Memory, s: Sample, now: real) returns (reports: seq<Report>, memory: Memory)
    ensures Run(m, SampleObservations(s), now) == RunResult(reports, memory)
  {
    var obs := SampleObservations(s);
    reports, memory := [], m;
    for k := 0 to |obs|
      invariant Run(m, obs[..k], now) == RunResult(reports, memory)
    {
      var c := CounterCall(memory, obs[k], now);
      RunSnoc(m, obs[..k], obs[k], now);
      assert obs[..k + 1] == obs[..k] + [obs[k]];
      reports, memory := reports + c.reports, c.memory;
    }
    assert obs[..|obs|] == obs;
  }

  /** Feeding one more sample continues the run from where it stood. */
  lemma FeedTail(m: Memory, samples: seq<Sample>, s: Sample, now: real)
    ensures var before := Run(m, Observations(samples), now);
            var more := Run(before.memory, SampleObservations(s), now);
            Run(m, Observations(samples + [s]), now) == RunResult(before.reports + more.reports, more.memory)
  {
    assert Observations([s]) == SampleObservations(s) by {
      assert [s][1..] == [];
    }
    ObservationsAppend(samples, [s]);
    RunAppend(m, Observations(samples), SampleObservations(s), now);
  }

  // ---------------------------------------------------------------- where values come from

  /** Distinct interfaces or directions have distinct keys. */
  lemma KeysDiffer(a: string, d: Direction, b: string, e: Direction)
    requires a != b || d != e
    ensures CounterKey(a, d) != CounterKey(b, e)
  {
    if CounterKey(a, d) == CounterKey(b, e) {
      CounterKeyInjective(a, d, b, e);
    }
  }

  lemma {:induction false} FirstValueAppend(a: seq<Observation>, b: seq<Observation>, key: string)
    ensures FirstValue(a + b, key) == if FirstValue(a, key).Some? then FirstValue(a, key) else FirstValue(b, key)
    decreases |a|
  {
    if |a| == 0 {
      assert a + b == b;
    } else {
      assert (a + b)[0] == a[0];
      assert (a + b)[1..] == a[1..] + b;
      FirstValueAppend(a[1..], b, key);
    }
  }

  lemma {:induction false} LastValueAppend(a: seq<Observation>, b: seq<Observation>, key: string)
    ensures LastValue(a + b, key) == if LastValue(b, key).Some? then LastValue(b, key) else LastValue(a, key)
    decreases |a|
  {
    if |a| == 0 {
      assert a + b == b;
    } else {
      assert (a + b)[0] == a[0];
      assert (a + b)[1..] == a[1..] + b;
      LastValueAppend(a[1..], b, key);
    }
  }

  /** Among four observations with distinct keys, each key's first and last value is its own. */
  lemma FourValues(o1: Observation, o2: Observation, o3: Observation, o4: Observation, key: string)
    requires o1.key != o2.key && o1.key != o3.key && o1.key != o4.key
    requires o2.key != o3.key && o2.key != o4.key && o3.key != o4.key
    ensures var obs := [o1, o2, o3, o4];
            var v := if key == o1.key then Some(o1.value) else if key == o2.key then Some(o2.value)
                     else if key == o3.key then Some(o3.value) else if key == o4.key then Some(o4.value) else None;
            FirstValue(obs, key) == v && LastValue(obs, key) == v
  {
    var obs := [o1, o2, o3, o4];
    assert obs[1..] == [o2, o3, o4];
    assert obs[1..][1..] == [o3, o4];
    assert obs[1..][1..][1..] == [o4];
    assert obs[1..][1..][1..][1..] == [];
    var v4 := if key == o4.key then Some(o4.value) else None;
    var v3 := if key == o3.key then Some(o3.value) else v4;
    var v2 := if key == o2.key then Some(o2.value) else v3;
    assert FirstValue([o4], key) == v4 && LastValue([o4], key) == v4;
    assert FirstValue([o3, o4], key) == v3 && LastValue([o3, o4], key) == v3;
    assert FirstValue([o2, o3, o4], key) == v2 && LastValue([o2, o3, o4], key) == v2;
  }

  /** One interface's four calls carry its four counters under four distinct keys,
      and no key of another interface. */
  lemma SampleValues(s: Sample, key: string)
    ensures forall d :: FirstValue(SampleObservations(s), CounterKey(s.name, d)) == Some(CounterValue(s, d))
    ensures forall d :: LastValue(SampleObservations(s), CounterKey(s.name, d)) == Some(CounterValue(s, d))
    ensures (forall d :: key != CounterKey(s.name, d)) ==>
              FirstValue(SampleObservations(s), key).None? && LastValue(SampleObservations(s), key).None?
  {
    var n := s.name;
    KeysDiffer(n, In, n, InPackets);
    KeysDiffer(n, In, n, Out);
    KeysDiffer(n, In, n, OutPackets);
    KeysDiffer(n, InPackets, n, Out);
    KeysDiffer(n, InPackets, n, OutPackets);
    KeysDiffer(n, Out, n, OutPackets);
    var o := SampleObservations(s);
    forall d ensures FirstValue(o, CounterKey(n, d)) == Some(CounterValue(s, d))
                  && LastValue(o, CounterKey(n, d)) == Some(CounterValue(s, d))
    {
      FourValues(o[0], o[1], o[2], o[3], CounterKey(n, d));
    }
    FourValues(o[0], o[1], o[2], o[3], key);
  }

  /** The first call for a counter of sample `j` carries sample `j`'s value when no
      earlier sample has the same interface name. */
  lemma {:induction false} ObservedFirst(samples: seq<Sample>, j: nat, d: Direction)
    requires j < |samples|
    requires forall i :: 0 <= i < j ==> samples[i].name != samples[j].name
    ensures FirstValue(Observations(samples), CounterKey(samples[j].name, d)) == Some(CounterValue(samples[j], d))
    decreases j
  {
    var key := CounterKey(samples[j].name, d);
    FirstValueAppend(SampleObservations(samples[0]), Observations(samples[1..]), key);
    if j == 0 {
      SampleValues(samples[0], key);
    } else {
      forall e ensures key != CounterKey(samples[0].name, e) {
        KeysDiffer(samples[j].name, d, samples[0].name, e);
      }
      SampleValues(samples[0], key);
      assert samples[1..][j - 1] == samples[j];
      ObservedFirst(samples[1..], j - 1, d);
    }
  }

  /** The last call for a counter of sample `j` carries sample `j`'s value when no
      later sample has the same interface name. */
  lemma {:induction false} ObservedLast(samples: seq<Sample>, j: nat, d: Direction)
    requires j < |samples|
    requires forall i :: j < i < |samples| ==> samples[i].name != samples[j].name
    ensures LastValue(Observations(samples), CounterKey(samples[j].name, d)) == Some(CounterValue(samples[j], d))
    decreases j
  {
    var key := CounterKey(samples[j].name, d);
    LastValueAppend(SampleObservations(samples[0]), Observations(samples[1..]), key);
    if j == 0 {
      SampleValues(samples[0], key);
      forall i, e | 0 <= i < |samples[1..]|
        ensures key != CounterKey(samples[1..][i].name, e)
      {
        assert samples[1..][i] == samples[i + 1];
        KeysDiffer(samples[j].name, d, samples[i + 1].name, e);
      }
      NotObserved(samples[1..], key);
    } else {
      assert samples[1..][j - 1] == samples[j];
      ObservedLast(samples[1..], j - 1, d);
    }
  }

  /** A key that is no counter of any sample is never called. */
  lemma {:induction false} NotObserved(samples: seq<Sample>, key: string)
    requires forall j, d :: 0 <= j < |samples| ==> key != CounterKey(samples[j].name, d)
    ensures key !in KeysOf(Observations(samples))
    decreases |samples|
  {
    if |samples| > 0 {
      FirstValueAppend(SampleObservations(samples[0]), Observations(samples[1..]), key);
      SampleValues(samples[0], key);
      forall j, d | 0 <= j < |samples[1..]|
        ensures key != CounterKey(samples[1..][j].name, d)
      {
        assert samples[1..][j] == samples[j + 1];
      }
      NotObserved(samples[1..], key);
    }
  }

  /** Every key called is a counter of some sample. */
  lemma {:induction false} ObservedKeys(samples: seq<Sample>, key: string)
    requires key in KeysOf(Observations(samples))
    ensures exists j, d :: 0 <= j < |samples| && key == CounterKey(samples[j].name, d)
    decreases |samples|
  {
    var o := SampleObservations(samples[0]);
    FirstValueAppend(o, Observations(samples[1..]), key);
    SampleValues(samples[0], key);
    if FirstValue(o, key).Some? {
      var d :| key == CounterKey(samples[0].name, d);
    } else {
      ObservedKeys(samples[1..], key);
      var j, d :| 0 <= j < |samples[1..]| && key == CounterKey(samples[1..][j].name, d);
      assert samples[1..][j] == samples[j + 1];
    }
  }

  // ---------------------------------------------------------------- feeding samples

  /** On the first tick nothing is remembered yet, so nothing is reported. */
  lemma FirstFeedReportsNothing(samples: seq<Sample>, now: real)
    ensures Run(map[], Observations(samples), now).reports == []
  {
    var obs := Observations(samples);
    RunWithoutBaselines(map[], obs, now);
  }

  /** Calls for keys with no baseline at least a second old report nothing. */
  lemma {:induction false} RunWithoutBaselines(m: Memory, obs: seq<Observation>, now: real)
    requires forall i :: 0 <= i < |obs| && obs[i].key in m ==> now - m[obs[i].key].time < 1.0
    ensures Run(m, obs, now).reports == []
    decreases |obs|
  {
    if |obs| > 0 {
      var first := CounterCall(m, obs[0], now);
      forall i | 0 <= i < |obs[1..]| && obs[1..][i].key in first.memory
        ensures now - first.memory[obs[1..][i].key].time < 1.0
      {
        assert obs[1..][i] == obs[i + 1];
      }
      RunWithoutBaselines(first.memory, obs[1..], now);
    }
  }

  /** Feeding samples reports each key at most once; every rate reported is
      non-negative, already rounded to two digits, and belongs to a counter of one
      of the samples. */
  lemma FeedReports(m: Memory, samples: seq<Sample>, now: real)
    ensures var f := Run(m, Observations(samples), now);
            forall i, j :: 0 <= i < j < |f.reports| ==> f.reports[i].key != f.reports[j].key
    ensures var f := Run(m, Observations(samples), now);
            forall i :: 0 <= i < |f.reports| ==> f.reports[i].rate >= 0.0 && RoundTo(f.reports[i].rate, 2) == f.reports[i].rate
    ensures var f := Run(m, Observations(samples), now);
            forall i :: 0 <= i < |f.reports| ==>
              exists j, d :: 0 <= j < |samples| && f.reports[i].key == CounterKey(samples[j].name, d)
  {
    var obs := Observations(samples);
    RunReports(m, obs, now);
    var f := Run(m, obs, now);
    forall i | 0 <= i < |f.reports|
      ensures f.reports[i].rate >= 0.0 && RoundTo(f.reports[i].rate, 2) == f.reports[i].rate
      ensures exists j, d :: 0 <= j < |samples| && f.reports[i].key == CounterKey(samples[j].name, d)
    {
      var key := f.reports[i].key;
      assert FirstCallRate(m, obs, key, now) == Some(f.reports[i].rate);
      var v := FirstValue(obs, key).value;
      ObserveNonnegative(m, key, v, now, PerSecond, Digits(2));
      RoundedRate(m, key, v, now, PerSecond, 2);
      ObservedKeys(samples, key);
    }
  }

  /** The rate reported for a counter of an interface: the increase of its value in
      the interface's first sample over the remembered one, per second, to two
      digits. It is reported exactly when a baseline exists, the value has not
      dropped, and a second or more has passed. */
  lemma FeedRate(m: Memory, samples: seq<Sample>, now: real, j: nat, d: Direction)
    requires j < |samples|
    requires forall i :: 0 <= i < j ==> samples[i].name != samples[j].name
    ensures var f := Run(m, Observations(samples), now);
            var key := CounterKey(samples[j].name, d);
            var v := CounterValue(samples[j], d);
            (key in ReportedKeys(f.reports) <==> Reportable(m, key, v, now)) &&
            forall i :: 0 <= i < |f.reports| && f.reports[i].key == key ==>
              f.reports[i].rate == RoundTo((v - m[key].value) / (now - m[key].time), 2)
  {
    var obs := Observations(samples);
    var key := CounterKey(samples[j].name, d);
    var v := CounterValue(samples[j], d);
    var f := Run(m, obs, now);
    ObservedFirst(samples, j, d);
    RunReports(m, obs, now);
    assert FirstCallRate(m, obs, key, now) == Observe(m, key, v, now, PerSecond, Digits(2)).reported;
    if key in ReportedKeys(f.reports) {
      var i :| 0 <= i < |f.reports| && f.reports[i].key == key;
      assert FirstCallRate(m, obs, key, now).Some?;
    }
    if Reportable(m, key, v, now) {
      PerSecondToTwoDigits(m, key, v, now);
    }
  }

  /** After feeding, each counter of an interface holds `now` and the value of the
      interface's last sample. */
  lemma FeedMemory(m: Memory, samples: seq<Sample>, now: real, j: nat, d: Direction)
    requires j < |samples|
    requires forall i :: j < i < |samples| ==> samples[i].name != samples[j].name
    ensures var f := Run(m, Observations(samples), now);
            var key := CounterKey(samples[j].name, d);
            key in f.memory && f.memory[key] == Baseline(now, CounterValue(samples[j], d))
  {
    ObservedLast(samples, j, d);
    RunMemory(m, Observations(samples), now, CounterKey(samples[j].name, d));
  }

  /** Feeding leaves alone every remembered key that is no counter of a sample. */
  lemma FeedKeepsOtherKeys(m: Memory, samples: seq<Sample>, now: real, key: string)
    requires key in m
    requires forall j, d :: 0 <= j < |samples| ==> key != CounterKey(samples[j].name, d)
    ensures var f := Run(m, Observations(samples), now);
            key in f.memory && f.memory[key] == m[key]
  {
    NotObserved(samples, key);
    RunMemory(m, Observations(samples), now, key);
  }

  // ---------------------------------------------------------------- properties of a tick

  /** A tick feeds the samples of the matching lines read before any crash. */
  lemma TickFeeds(m: Memory, text: string, matches: string -> bool, now: real)
    ensures var t := Tick(m, text, matches, now);
            var f := Run(m, Observations(ReadTable(text, matches).samples), now);
            t.reports == f.reports && t.memory == f.memory
  {
  }

  /** On the first tick, with nothing remembered, nothing is reported. */
  lemma FirstTickReportsNothing(text: string, matches: string -> bool, now: real)
    ensures Tick(map[], text, matches, now).reports == []
  {
    TickFeeds(map[], text, matches, now);
    FirstFeedReportsNothing(ReadTable(text, matches).samples, now);
  }

  /** Over the data lines: "no interfaces found" exactly when every line is read
      without matching; the candidates are then the names of all lines, in order. */
  lemma NoInterfacesInLines(data: seq<string>, matches: string -> bool)
    ensures var f := FaultOf(ReadLines(data, matches));
            (f.Some? && f.value.NoInterfacesFound?) <==>
              forall i :: 0 <= i < |data| ==> ReadLine(data[i], matches).Unmatched?
    ensures var t := ReadLines(data, matches);
            var f := FaultOf(t);
            f.Some? && f.value.NoInterfacesFound? ==>
              t.samples == [] && |f.value.candidates| == |data| &&
              forall i :: 0 <= i < |data| ==> f.value.candidates[i] == NameOf(ReadLine(data[i], matches))
  {
    ReadLinesCrash(data, matches);
    ReadLinesFound(data, matches);
    ReadLinesNames(data, matches);
  }

  /** A tick's error is decided by reading the data lines, unless the header lines
      are missing. */
  lemma TickFault(m: Memory, text: string, matches: string -> bool, now: real)
    ensures var lines := SplitLines(text);
            Tick(m, text, matches, now).fault
              == if |lines| < 2 then Some(Raised(NoTable)) else FaultOf(ReadLines(lines[2..], matches))
  {
  }

  /** "No interfaces found" is reported exactly when the table has its two header
      lines and every data line was read without matching. */
  lemma NoInterfacesFoundIff(m: Memory, text: string, matches: string -> bool, now: real)
    ensures var t := Tick(m, text, matches, now);
            var lines := SplitLines(text);
            (t.fault.Some? && t.fault.value.NoInterfacesFound?) <==>
              (|lines| >= 2 && forall i :: 2 <= i < |lines| ==> ReadLine(lines[i], matches).Unmatched?)
  {
    var lines := SplitLines(text);
    TickFault(m, text, matches, now);
    if |lines| >= 2 {
      var data := lines[2..];
      NoInterfacesInLines(data, matches);
      assert forall i :: 2 <= i < |lines| ==> lines[i] == data[i - 2];
      assert forall i :: 0 <= i < |data| ==> data[i] == lines[i + 2];
    }
  }

  /** When "no interfaces found" is reported, the error lists the name of every data
      line, in order. */
  lemma NoInterfacesFoundLists(m: Memory, text: string, matches: string -> bool, now: real)
    ensures var t := Tick(m, text, matches, now);
            var lines := SplitLines(text);
            t.fault.Some? && t.fault.value.NoInterfacesFound? ==>
              |t.fault.value.candidates| == |lines| - 2 &&
              forall i :: 0 <= i < |t.fault.value.candidates| ==>
                t.fault.value.candidates[i] == NameOf(ReadLine(lines[i + 2], matches))
  {
    var lines := SplitLines(text);
    TickFault(m, text, matches, now);
    if |lines| >= 2 {
      NoInterfacesInLines(lines[2..], matches);
    }
  }

  /** When "no interfaces found" is reported, nothing is reported or remembered. */
  lemma NoInterfacesFoundSilent(m: Memory, text: string, matches: string -> bool, now: real)
    ensures var t := Tick(m, text, matches, now);
            t.fault.Some? && t.fault.value.NoInterfacesFound? ==> t.reports == [] && t.memory == m
  {
    var lines := SplitLines(text);
    TickFault(m, text, matches, now);
    TickFeeds(m, text, matches, now);
    if |lines| >= 2 {
      NoInterfacesInLines(lines[2..], matches);
      assert Observations([]) == [];
    }
  }

  /** The parsing raises exactly when the table lacks its header lines or a data
      line that matched has no colon; what was reported and remembered before is kept. */
  lemma TickRaisesIff(m: Memory, text: string, matches: string -> bool, now: real)
    ensures var t := Tick(m, text, matches, now);
            var lines := SplitLines(text);
            (t.fault.Some? && t.fault.value.Raised?) <==>
              (|lines| < 2 || exists i :: 2 <= i < |lines| && ReadLine(lines[i], matches).Unreadable?)
  {
    var lines := SplitLines(text);
    if |lines| >= 2 {
      var data := lines[2..];
      ReadLinesCrash(data, matches);
      assert forall i :: 2 <= i < |lines| ==> lines[i] == data[i - 2];
      assert forall i :: 0 <= i < |data| ==> data[i] == lines[i + 2];
    }
  }

  /** One call whose rate, two digits deep, is the whole number `rate`. */
  lemma CallWholeRate(m: Memory, key: string, v: real, now: real, rate: int, before: Baseline)
    requires key in m && m[key] == before
    requires v >= before.value && now - before.time >= 1.0
    requires (v - before.value) / (now - before.time) == rate as real
    ensures CounterCall(m, Observation(key, v), now).reports == [Report(key, rate as real)]
    ensures forall k :: k in m && k != key ==>
              k in CounterCall(m, Observation(key, v), now).memory && CounterCall(m, Observation(key, v), now).memory[k] == m[k]
  {
    WholeAtTwoDigits(rate);
  }

  /** Two ticks two seconds apart: the first only remembers, the second reports
      2 KB and 4 packets received over 2 s as 1.0 KB/s and 2.0 packets/s, and an
      idle direction as 0.0. */
  lemma TwoTicks()
    ensures var first := Run(map[], Observations([Sample("eth0", 1024, 10, 2048, 20)]), 100.0);
            var second := Run(first.memory, Observations([Sample("eth0", 3072, 14, 2048, 20)]), 102.0);
            first.reports == [] &&
            second.reports == [Report("eth0_in", 1.0), Report("eth0_in_packets", 2.0),
                               Report("eth0_out", 0.0), Report("eth0_out_packets", 0.0)]
  {
    var s1 := Sample("eth0", 1024, 10, 2048, 20);
    FirstFeedReportsNothing([s1], 100.0);
    var m1 := Run(map[], Observations([s1]), 100.0).memory;
    forall d ensures CounterKey("eth0", d) in m1 && m1[CounterKey("eth0", d)] == Baseline(100.0, CounterValue(s1, d)) {
      FeedMemory(map[], [s1], 100.0, 0, d);
    }
    SecondTick(m1, "eth0");
    EthKeys();
  }

  lemma EthKeys()
    ensures CounterKey("eth0", In) == "eth0_in"
    ensures CounterKey("eth0", InPackets) == "eth0_in_packets"
    ensures CounterKey("eth0", Out) == "eth0_out"
    ensures CounterKey("eth0", OutPackets) == "eth0_out_packets"
  {
  }

  /** Calls for distinct keys whose rates, two digits deep, are the whole numbers
      `rates`, each measured against the baseline in `befores`, report exactly
      those rates in call order. */
  lemma {:induction false} RunWholeRates(m: Memory, obs: seq<Observation>, now: real, rates: seq<int>, befores: seq<Baseline>)
    requires |rates| == |obs| && |befores| == |obs|
    requires forall i, j :: 0 <= i < j < |obs| ==> obs[i].key != obs[j].key
    requires forall i :: 0 <= i < |obs| ==> obs[i].key in m && m[obs[i].key] == befores[i]
    requires forall i :: 0 <= i < |obs| ==>
               obs[i].value >= befores[i].value && now - befores[i].time >= 1.0 &&
               (obs[i].value - befores[i].value) / (now - befores[i].time) == rates[i] as real
    ensures |Run(m, obs, now).reports| == |obs|
    ensures forall i :: 0 <= i < |obs| ==> Run(m, obs, now).reports[i] == Report(obs[i].key, rates[i] as real)
    decreases |obs|
  {
    if |obs| > 0 {
      var o := obs[0];
      CallWholeRate(m, o.key, o.value, now, rates[0], befores[0]);
      var first := CounterCall(m, o, now);
      forall i | 0 <= i < |obs[1..]|
        ensures obs[1..][i].key in first.memory && first.memory[obs[1..][i].key] == befores[1..][i]
      {
        assert obs[1..][i] == obs[i + 1];
      }
      RunWholeRates(first.memory, obs[1..], now, rates[1..], befores[1..]);
      var rest := Run(first.memory, obs[1..], now);
      assert Run(m, obs, now).reports == first.reports + rest.reports;
      forall i | 1 <= i < |obs|
        ensures Run(m, obs, now).reports[i] == Report(obs[i].key, rates[i] as real)
      {
        assert rest.reports[i - 1] == Report(obs[1..][i - 1].key, rates[1..][i - 1] as real);
      }
    }
  }

  /** The second tick of `TwoTicks`, for an interface named `n`, from the baselines
      the first tick left. */
  lemma SecondTick(m: Memory, n: string)
    requires forall d :: CounterKey(n, d) in m
    requires m[CounterKey(n, In)] == Baseline(100.0, 1.0)
    requires m[CounterKey(n, InPackets)] == Baseline(100.0, 10.0)
    requires m[CounterKey(n, Out)] == Baseline(100.0, 2.0)
    requires m[CounterKey(n, OutPackets)] == Baseline(100.0, 20.0)
    ensures Run(m, Observations([Sample(n, 3072, 14, 2048, 20)]), 102.0).reports
         == [Report(CounterKey(n, In), 1.0), Report(CounterKey(n, InPackets), 2.0),
             Report(CounterKey(n, Out), 0.0), Report(CounterKey(n, OutPackets), 0.0)]
  {
    KeysDiffer(n, In, n, InPackets);
    KeysDiffer(n, In, n, Out);
    KeysDiffer(n, In, n, OutPackets);
    KeysDiffer(n, InPackets, n, Out);
    KeysDiffer(n, InPackets, n, OutPackets);
    KeysDiffer(n, Out, n, OutPackets);
    SecondTickObservations(n);
    SecondTickRun(m, CounterKey(n, In), CounterKey(n, InPackets), CounterKey(n, Out), CounterKey(n, OutPackets));
  }

  /** The calls the second sample of `TwoTicks` makes. */
  lemma SecondTickObservations(n: string)
    ensures Observations([Sample(n, 3072, 14, 2048, 20)])
         == [Observation(CounterKey(n, In), 3.0), Observation(CounterKey(n, InPackets), 14.0),
             Observation(CounterKey(n, Out), 2.0), Observation(CounterKey(n, OutPackets), 20.0)]
  {
    assert [Sample(n, 3072, 14, 2048, 20)][1..] == [];
  }

  /** The calls of the second tick of `TwoTicks`, for any four distinct keys. */
  lemma SecondTickRun(m: Memory, k1: string, k2: string, k3: string, k4: string)
    requires k1 != k2 && k1 != k3 && k1 != k4 && k2 != k3 && k2 != k4 && k3 != k4
    requires k1 in m && m[k1] == Baseline(100.0, 1.0)
    requires k2 in m && m[k2] == Baseline(100.0, 10.0)
    requires k3 in m && m[k3] == Baseline(100.0, 2.0)
    requires k4 in m && m[k4] == Baseline(100.0, 20.0)
    ensures Run(m, [Observation(k1, 3.0), Observation(k2, 14.0), Observation(k3, 2.0), Observation(k4, 20.0)], 102.0).reports
         == [Report(k1, 1.0), Report(k2, 2.0), Report(k3, 0.0), Report(k4, 0.0)]
  {
    var obs := [Observation(k1, 3.0), Observation(k2, 14.0), Observation(k3, 2.0), Observation(k4, 20.0)];
    var befores := [Baseline(100.0, 1.0), Baseline(100.0, 10.0), Baseline(100.0, 2.0), Baseline(100.0, 20.0)];
    var rates := [1, 2, 0, 0];
    forall i | 0 <= i < 4
      ensures obs[i].key in m && m[obs[i].key] == befores[i]
      ensures obs[i].value >= befores[i].value && 102.0 - befores[i].time >= 1.0
      ensures (obs[i].value - befores[i].value) / (102.0 - befores[i].time) == rates[i] as real
    {
      if i == 0 {
      } else if i == 1 {
      } else if i == 2 {
      } else {
      }
    }
    RunWholeRates(m, obs, 102.0, rates, befores);
    var r := Run(m, obs, 102.0).reports;
    assert r[0] == Report(k1, 1.0) && r[1] == Report(k2, 2.0);
    assert r[2] == Report(k3, 0.0) && r[3] == Report(k4, 0.0);
  }

  // ---------------------------------------------------------------- ticks on table text

  /** A table with its two header lines and one kernel-style line for a matching
      interface, every line ending in a newline: the tick reads that interface's counters 0, 1, 8 and 9, feeds its
      four counters, and reports no error. */
  lemma TickOneInterface(m: Memory, h1: string, h2: string, pad: string, name: string, lead: string,
                         counters: seq<int>, gaps: seq<string>, trail: string,
                         matches: string -> bool, now: real)
    requires '\n' !in h1 && '\n' !in h2
    requires AllStripSpace(pad) && AllStripSpace(lead) && AllStripSpace(trail)
    requires '\n' !in pad && '\n' !in lead && '\n' !in trail && '\n' !in name
    requires Trimmed(name) && ':' !in name && matches(name)
    requires |counters| == 0 || |gaps| == |counters| - 1
    requires forall i :: 0 <= i < |gaps| ==> |gaps[i]| > 0 && AllSpace(gaps[i]) && '\n' !in gaps[i]
    ensures var text := Join([h1, h2, CounterLine(pad, name, lead, counters, gaps, trail)], '\n') + "\n";
            var s := Sample(name, CounterAt(counters, 0), CounterAt(counters, 1),
                            CounterAt(counters, 8), CounterAt(counters, 9));
            var fed := Run(m, Observations([s]), now);
            Tick(m, text, matches, now) == TickResult(fed.reports, fed.memory, None)
  {
    var line := CounterLine(pad, name, lead, counters, gaps, trail);
    CounterLineIsOneLine(pad, name, lead, counters, gaps, trail);
    ReadTableOneLine(h1, h2, line, matches);
    ReadCounterLine(pad, name, lead, counters, gaps, trail, matches);
    var text := Join([h1, h2, line], '\n') + "\n";
    TickOfOneSample(m, text, matches, now, ReadTable(text, matches).samples[0]);
  }

  /** A table that reads as one matching interface gives a tick that feeds its counters
      and reports no error. */
  lemma TickOfOneSample(m: Memory, text: string, matches: string -> bool, now: real, s: Sample)
    requires ReadTable(text, matches) == Table([s.name], [s], None)
    ensures var fed := Run(m, Observations([s]), now);
            Tick(m, text, matches, now) == TickResult(fed.reports, fed.memory, None)
  {
  }

  /** `/proc/net/dev` with the header lines `h1` and `h2` and one interface `eth0`
      with the given received and transmitted bytes and packets; the error, drop
      and fifo counters between them are 0. Every line ends in a newline. */
  function DevText(h1: string, h2: string, rxBytes: int, rxPackets: int, txBytes: int, txPackets: int): string {
    Join([h1, h2, CounterLine("  ", "eth0", " ", DevCounters(rxBytes, rxPackets, txBytes, txPackets),
                              DevGaps, "")], '\n') + "\n"
  }

  /** The counter columns of that line: received bytes and packets in columns 0 and 1,
      transmitted bytes and packets in columns 8 and 9. */
  function DevCounters(rxBytes: int, rxPackets: int, txBytes: int, txPackets: int): seq<int> {
    [rxBytes, rxPackets, 0, 0, 0, 0, 0, 0, txBytes, txPackets]
  }

  const DevGaps: seq<string> := [" ", " ", " ", " ", " ", " ", " ", " ", " "]

  /** `TwoTicks` end to end: the same two ticks, each given as the text of
      `/proc/net/dev`, whatever its header lines say, with any filter that lets
      `eth0` through. */
  lemma TwoTicksOnText(h1: string, h2: string, matches: string -> bool)
    requires '\n' !in h1 && '\n' !in h2 && matches("eth0")
    ensures var first := Tick(map[], DevText(h1, h2, 1024, 10, 2048, 20), matches, 100.0);
            var second := Tick(first.memory, DevText(h1, h2, 3072, 14, 2048, 20), matches, 102.0);
            first.reports == [] && first.fault == None && second.fault == None &&
            second.reports == [Report("eth0_in", 1.0), Report("eth0_in_packets", 2.0),
                               Report("eth0_out", 0.0), Report("eth0_out_packets", 0.0)]
  {
    DevTick(map[], h1, h2, 1024, 10, 2048, 20, matches, 100.0);
    var m1 := Run(map[], Observations([Sample("eth0", 1024, 10, 2048, 20)]), 100.0).memory;
    DevTick(m1, h1, h2, 3072, 14, 2048, 20, matches, 102.0);
    TwoTicks();
  }

  /** A tick over that text feeds `eth0`'s four counters and reports no error. */
  lemma DevTick(m: Memory, h1: string, h2: string, rxBytes: int, rxPackets: int, txBytes: int, txPackets: int,
                matches: string -> bool, now: real)
    requires '\n' !in h1 && '\n' !in h2 && matches("eth0")
    ensures var fed := Run(m, Observations([Sample("eth0", rxBytes, rxPackets, txBytes, txPackets)]), now);
            Tick(m, DevText(h1, h2, rxBytes, rxPackets, txBytes, txPackets), matches, now)
              == TickResult(fed.reports, fed.memory, None)
  {
    var counters := DevCounters(rxBytes, rxPackets, txBytes, txPackets);
    assert CounterAt(counters, 0) == rxBytes && CounterAt(counters, 1) == rxPackets;
    assert CounterAt(counters, 8) == txBytes && CounterAt(counters, 9) == txPackets;
    assert forall i :: 0 <= i < |DevGaps| ==> DevGaps[i] == " ";
    assert AllStripSpace("  ") && AllStripSpace(" ") && AllStripSpace("");
    assert Trimmed("eth0") && ':' !in "eth0" && '\n' !in "eth0";
    TickOneInterface(m, h1, h2, "  ", "eth0", " ", counters, DevGaps, "", matches, now);
  }

  // ---------------------------------------------------------------- the error text

  /** The error's text up to the listing; `shown` is the filter as Ruby prints a
      regular expression. */
  function NoInterfacesPreamble(shown: string): string {
    "No interfaces were found that matched the regular expression [" + shown
      + "]. You can modify the regular expression in the plugin's advanced settings.\n\nPossible interfaces:\n"
  }

  /** The error's full text: the preamble, then the candidates joined by newlines. */
  function NoInterfacesMessage(shown: string, candidates: seq<string>): string {
    NoInterfacesPreamble(shown) + Join(candidates, '\n')
  }

  /** The listing after the preamble splits back, line by line, into the candidates
      when none holds a newline. */
  lemma MessageListsCandidates(shown: string, candidates: seq<string>)
    requires |candidates| >= 1
    requires forall i :: 0 <= i < |candidates| ==> '\n' !in candidates[i]
    ensures var msg := NoInterfacesMessage(shown, candidates);
            var n := |NoInterfacesPreamble(shown)|;
            n <= |msg| && msg[..n] == NoInterfacesPreamble(shown) && Fields(msg[n..], '\n') == candidates
  {
    var msg := NoInterfacesMessage(shown, candidates);
    var n := |NoInterfacesPreamble(shown)|;
    assert msg[n..] == Join(candidates, '\n');
    FieldsJoin(candidates, '\n');
  }

  /** The candidates of a tick never hold a newline, so its error text lists each of
      them on a line of its own. */
  lemma TickMessageLists(m: Memory, text: string, matches: string -> bool, now: real, shown: string)
    requires var t := Tick(m, text, matches, now);
             t.fault.Some? && t.fault.value.NoInterfacesFound? && |t.fault.value.candidates| >= 1
    ensures var c := Tick(m, text, matches, now).fault.value.candidates;
            var msg := NoInterfacesMessage(shown, c);
            var n := |NoInterfacesPreamble(shown)|;
            n <= |msg| && Fields(msg[n..], '\n') == c
  {
    var lines := SplitLines(text);
    var c := Tick(m, text, matches, now).fault.value.candidates;
    NoInterfacesFoundLists(m, text, matches, now);
    forall i | 0 <= i < |c|
      ensures '\n' !in c[i]
    {
      NameWithinLine(lines[i + 2], matches, '\n');
    }
    MessageListsCandidates(shown, c);
  }
}

=== FILE: optional.dfy ===
/** A value that may be absent: Ruby's `nil` wherever the plugin can meet one. */
module Optional {

  datatype Option<+T> = None | Some(value: T)

}

=== FILE: rate_counter.dfy ===
/**
  The plugin's `local_counter`: a per-key memory of the last (time, value)
  observation, from which each later observation derives a rate. It is written
  as a pure step from the memory before a call to the memory after it, together
  with the value reported, if any. Ruby Floats are modelled by exact reals and
  `Time.now` by the parameter `now`, in seconds.
 */
module RateCounter {
  import opened Optional

  /** The last observation remembered for one key: when, and what value. */
  datatype Baseline = Baseline(time: real, value: real)

  /** The plugin's memory between calls: one baseline per counter key. */
  type Memory = map<string, Baseline>

  /** The `:per` option: per second, per minute, or (any other value) the bare increase. */
  datatype Per = PerSecond | PerMinute | PerInterval

  /** The `:round` option: absent or false, the legacy `true`, or a digit count.
      Any integer counts as given, 0 included, since 0 is truthy in Ruby. */
  datatype Rounding = NoRounding | LegacyRound | Digits(count: int)

  function Pow10Nat(n: nat): (p: nat)
    ensures p >= 1
  {
    if n == 0 then 1 else 10 * Pow10Nat(n - 1)
  }

  /** `10 ** d`: an Integer for d >= 0 and the Rational 1/10^-d below zero. */
  function Pow10(d: int): (p: real)
    ensures p > 0.0
  {
    if d >= 0 then Pow10Nat(d) as real else 1.0 / Pow10Nat(-d) as real
  }

  /** `Float#round` without arguments: the nearest integer, ties away from zero.
      The two interval conditions determine the result uniquely. */
  function RoundHalfAway(x: real): (n: int)
    ensures x >= 0.0 ==> x - 0.5 < n as real <= x + 0.5
    ensures x < 0.0 ==> x - 0.5 <= n as real < x + 0.5
  {
    if x >= 0.0 then (x + 0.5).Floor else -((0.5 - x).Floor)
  }

  /** The legacy normalisation: `:round => true` asks for one digit. */
  function DigitCount(rounding: Rounding): Option<int>
  {
    match rounding
    case NoRounding => None
    case LegacyRound => Some(1)
    case Digits(d) => Some(d)
  }

  /** Scale by `p`, round, scale back. */
  function RoundAt(x: real, p: real): real
    requires p > 0.0
  {
    RoundHalfAway(x * p) as real / p
  }

  /** `(x * 10**d).round / (10**d).to_f`. */
  function RoundTo(x: real, d: int): real
  {
    RoundAt(x, Pow10(d))
  }

  /** A whole number is its own nearest integer. */
  lemma RoundWhole(n: int)
    ensures RoundHalfAway(n as real) == n
  {
    var k := RoundHalfAway(n as real);
    if n >= 0 {
      assert n as real - 0.5 < k as real <= n as real + 0.5;
    } else {
      assert n as real - 0.5 <= k as real < n as real + 0.5;
    }
  }

  /** Scaled by `p`, the result of `RoundAt(x, p)` is the whole number nearest to
      `x` scaled by `p`, so within 0.5 of it; it keeps the sign of `x`. */
  lemma RoundAtSpec(x: real, p: real)
    requires p > 0.0
    ensures RoundAt(x, p) * p == RoundHalfAway(x * p) as real
    ensures -0.5 <= RoundAt(x, p) * p - x * p <= 0.5
    ensures x >= 0.0 ==> RoundAt(x, p) >= 0.0
  {
    var n := RoundHalfAway(x * p);
    assert RoundAt(x, p) * p == n as real;
    if x >= 0.0 {
      assert x * p >= 0.0;
    }
  }

  /** A whole number of steps `1/p` is left as it is. */
  lemma RoundAtExact(x: real, p: real, n: int)
    requires p > 0.0 && x * p == n as real
    ensures RoundAt(x, p) == x
  {
    RoundWhole(n);
    assert RoundHalfAway(x * p) == n;
  }

  /** Scaled by 10^d, the result of `RoundTo(x, d)` lies within 0.5 of `x` scaled
      the same way; it keeps the sign of `x`. */
  lemma RoundToSpec(x: real, d: int)
    ensures -0.5 <= RoundTo(x, d) * Pow10(d) - x * Pow10(d) <= 0.5
    ensures x >= 0.0 ==> RoundTo(x, d) >= 0.0
  {
    RoundAtSpec(x, Pow10(d));
  }

  /** The `:round` option applied to a rate. */
  function Rounded(x: real, rounding: Rounding): real
  {
    match DigitCount(rounding)
    case None => x
    case Some(d) => RoundTo(x, d)
  }

  /** The increase over `elapsed` seconds, expressed in the `:per` unit. */
  function Scaled(increase: real, elapsed: real, per: Per): (r: real)
    requires elapsed > 0.0
    ensures per.PerSecond? ==> r * elapsed == increase
    ensures per.PerMinute? ==> r * elapsed * 60.0 == increase
    ensures per.PerInterval? ==> r == increase
    ensures increase >= 0.0 ==> r >= 0.0
  {
    match per
    case PerSecond => increase / elapsed
    case PerMinute => increase / elapsed / 60.0
    case PerInterval => increase
  }

  /** What one call reports, if anything, and the memory it leaves behind. */
  datatype Step = Step(reported: Option<real>, memory: Memory)

  /** Whether an observation of `value` at `now` yields a rate against the baseline
      of `name`: there must be one, the value must not have dropped, and at least
      one second must have passed. */
  predicate Reportable(m: Memory, name: string, value: real, now: real) {
    name in m && value >= m[name].value && now - m[name].time >= 1.0
  }

  /** `local_counter(name, value, :per => per, :round => rounding)` called at `now`. */
  function Observe(m: Memory, name: string, value: real, now: real, per: Per, rounding: Rounding): (s: Step)
    ensures s.memory.Keys == m.Keys + {name}
    ensures s.memory[name] == Baseline(now, value)
    ensures forall k :: k in m && k != name ==> s.memory[k] == m[k]
    ensures s.reported.Some? <==> Reportable(m, name, value, now)
  {
    var reported :=
      if Reportable(m, name, value, now) then
        Some(Rounded(Scaled(value - m[name].value, now - m[name].time, per), rounding))
      else None;
    Step(reported, m[name := Baseline(now, value)])
  }

  /** A reported rate is never negative, whatever the unit and rounding. */
  lemma ObserveNonnegative(m: Memory, name: string, value: real, now: real, per: Per, rounding: Rounding)
    ensures var r := Observe(m, name, value, now, per, rounding).reported;
            r.Some? ==> r.value >= 0.0
  {
    if Reportable(m, name, value, now) {
      var raw := Scaled(value - m[name].value, now - m[name].time, per);
      match DigitCount(rounding)
      case None =>
      case Some(d) => RoundToSpec(raw, d);
    }
  }

  /** The first observation of a key reports nothing and records the baseline. */
  lemma FirstObservation(m: Memory, name: string, value: real, now: real, per: Per, rounding: Rounding)
    requires name !in m
    ensures Observe(m, name, value, now, per, rounding) == Step(None, m[name := Baseline(now, value)])
  {
  }

  /** A counter that went down (a wrap or a reset) reports nothing, yet becomes the new baseline. */
  lemma WrapReportsNothing(m: Memory, name: string, value: real, now: real, per: Per, rounding: Rounding)
    requires name in m && value < m[name].value
    ensures Observe(m, name, value, now, per, rounding).reported == None
    ensures Observe(m, name, value, now, per, rounding).memory[name] == Baseline(now, value)
  {
  }

  /** Without rounding, a per-second rate times the elapsed time is the increase. */
  lemma PerSecondRate(m: Memory, name: string, value: real, now: real)
    requires Reportable(m, name, value, now)
    ensures var r := Observe(m, name, value, now, PerSecond, NoRounding).reported;
            r.Some? && r.value * (now - m[name].time) == value - m[name].value
  {
  }

  /** Without rounding, a per-minute rate is the per-second rate divided by 60. */
  lemma PerMinuteRate(m: Memory, name: string, value: real, now: real)
    requires Reportable(m, name, value, now)
    ensures var r := Observe(m, name, value, now, PerMinute, NoRounding).reported;
            var s := Observe(m, name, value, now, PerSecond, NoRounding).reported;
            r.Some? && s.Some? && r.value * 60.0 == s.value
  {
    var e := now - m[name].time;
    var r := Scaled(value - m[name].value, e, PerMinute);
    var s := Scaled(value - m[name].value, e, PerSecond);
    assert (r * 60.0) * e == s * e;
  }

  /** With `:round => d`, the reported rate is already rounded to d digits (rounding
      it again changes nothing) and lies within half a step of 10^-d (0.5 after
      scaling by 10^d) of the unrounded rate. */
  lemma RoundedRate(m: Memory, name: string, value: real, now: real, per: Per, d: int)
    requires Reportable(m, name, value, now)
    ensures var r := Observe(m, name, value, now, per, Digits(d)).reported;
            var u := Observe(m, name, value, now, per, NoRounding).reported;
            r.Some? && u.Some? && RoundTo(r.value, d) == r.value &&
            -0.5 <= r.value * Pow10(d) - u.value * Pow10(d) <= 0.5
  {
    var raw := Scaled(value - m[name].value, now - m[name].time, per);
    ObserveRoundsAt(m, name, value, now, per, d);
    ObserveReports(m, name, value, now, per, NoRounding);
    RoundedNear(raw, Pow10(d));
  }

  /** A reportable observation reports its scaled increase, rounded as asked. */
  lemma ObserveReports(m: Memory, name: string, value: real, now: real, per: Per, rounding: Rounding)
    requires Reportable(m, name, value, now)
    ensures Observe(m, name, value, now, per, rounding).reported
         == Some(Rounded(Scaled(value - m[name].value, now - m[name].time, per), rounding))
  {
  }

  /** The call `build_report` makes, per second to two digits, reports the increase
      divided by the elapsed time, rounded to two digits. */
  lemma PerSecondToTwoDigits(m: Memory, name: string, value: real, now: real)
    requires Reportable(m, name, value, now)
    ensures Observe(m, name, value, now, PerSecond, Digits(2)).reported
         == Some(RoundTo((value - m[name].value) / (now - m[name].time), 2))
  {
    ObserveReports(m, name, value, now, PerSecond, Digits(2));
  }

  /** With `:round => d`, the rate is rounded at the scale 10^d. */
  lemma ObserveRoundsAt(m: Memory, name: string, value: real, now: real, per: Per, d: int)
    requires Reportable(m, name, value, now)
    ensures Observe(m, name, value, now, per, Digits(d)).reported
         == Some(RoundAt(Scaled(value - m[name].value, now - m[name].time, per), Pow10(d)))
  {
    ObserveReports(m, name, value, now, per, Digits(d));
  }

  /** Rounding at scale `p` gives a fixed point of the rounding within 0.5 of the
      input after scaling by `p`. */
  lemma RoundedNear(raw: real, p: real)
    requires p > 0.0
    ensures RoundAt(RoundAt(raw, p), p) == RoundAt(raw, p)
    ensures -0.5 <= RoundAt(raw, p) * p - raw * p <= 0.5
  {
    RoundAtSpec(raw, p);
    RoundAtExact(RoundAt(raw, p), p, RoundHalfAway(raw * p));
  }

  /** `:round => true` behaves exactly as `:round => 1`. */
  lemma LegacyRoundIsOneDigit(m: Memory, name: string, value: real, now: real, per: Per)
    ensures Observe(m, name, value, now, per, LegacyRound) == Observe(m, name, value, now, per, Digits(1))
  {
  }

  /** Rounding an already rounded value changes nothing: the results of `RoundTo(_, d)`
      are exactly its fixed points, the multiples of 10^-d. */
  lemma RoundToIdempotent(x: real, d: int)
    ensures RoundTo(RoundTo(x, d), d) == RoundTo(x, d)
  {
    var p := Pow10(d);
    RoundAtSpec(x, p);
    RoundAtExact(RoundAt(x, p), p, RoundHalfAway(x * p));
  }

  /** A value that is already a whole number of steps 10^-d is left as it is. */
  lemma RoundExact(x: real, d: int, n: int)
    requires x * Pow10(d) == n as real
    ensures RoundTo(x, d) == x
  {
    RoundAtExact(x, Pow10(d), n);
  }

  /** Whole numbers need no rounding to two digits. */
  lemma WholeAtTwoDigits(n: int)
    ensures RoundTo(n as real, 2) == n as real
  {
    assert Pow10(2) == 100.0;
    RoundExact(n as real, 2, 100 * n);
  }

  /** Exact arithmetic rounds the tie 100.5 up: 1.005 to two digits is 1.01. (A
      binary Float holds 1.005 slightly below it, so Ruby gives 1.0 there.) */
  lemma TieRoundsAway()
    ensures RoundTo(1.005, 2) == 1.01
  {
    assert Pow10(2) == 100.0;
    assert 1.005 * 100.0 + 0.5 == 101.0;
  }
}

=== FILE: ruby_string.dfy ===
/**
  The parts of Ruby's String class that the plugin's parser relies on, written out
  as total functions on `seq<char>`: `strip`, `split("\n")`, `split(':', 2)`,
  `split(/\s+/)` and `to_i`. Each comes with the inverse or characterisation that
  pins down what it computes.
 */
module RubyString {
  import opened Sequences

  /** Characters `String#strip` removes from either end: ASCII whitespace and NUL. */
  predicate IsStripSpace(c: char) {
    c == ' ' || c == '\t' || c == '\n' || c == '\U{B}' || c == '\U{C}' || c == '\r' || c == '\0'
  }

  /** Characters the regular-expression class `\s` matches; `to_i` skips the same ones. */
  predicate IsSpace(c: char) {
    c == ' ' || c == '\t' || c == '\n' || c == '\U{B}' || c == '\U{C}' || c == '\r'
  }

  predicate IsDigit(c: char) {
    '0' <= c <= '9'
  }

  predicate AllStripSpace(s: string) {
    forall i :: 0 <= i < |s| ==> IsStripSpace(s[i])
  }

  predicate AllSpace(s: string) {
    forall i :: 0 <= i < |s| ==> IsSpace(s[i])
  }

  /** No character of `s` is matched by `\s`. */
  predicate NoSpace(s: string) {
    forall i :: 0 <= i < |s| ==> !IsSpace(s[i])
  }

  predicate AllDigits(s: string) {
    forall i :: 0 <= i < |s| ==> IsDigit(s[i])
  }

  /** Neither end of `s` is a character `strip` would remove. */
  predicate Trimmed(s: string) {
    |s| == 0 || (!IsStripSpace(s[0]) && !IsStripSpace(s[|s| - 1]))
  }

  // ---------------------------------------------------------------- strip

  /** `lstrip`. */
  function TrimStart(s: string): string
  {
    if |s| > 0 && IsStripSpace(s[0]) then TrimStart(s[1..]) else s
  }

  /** `rstrip`. */
  function TrimEnd(s: string): string
  {
    if |s| > 0 && IsStripSpace(s[|s| - 1]) then TrimEnd(s[..|s| - 1]) else s
  }

  /** `String#strip`: `s` without the strip-space runs at either end. */
  function Strip(s: string): string
  {
    TrimEnd(TrimStart(s))
  }

  /** `TrimStart(s)` is the suffix of `s` left once the leading strip-space run is
      gone: what it drops is strip-space, and it does not start with strip-space. */
  lemma {:induction false} TrimStartSpec(s: string)
    ensures var r := TrimStart(s);
            |r| <= |s| && r == s[|s| - |r|..] && AllStripSpace(s[..|s| - |r|]) &&
            (|r| > 0 ==> !IsStripSpace(r[0]))
    decreases |s|
  {
    if |s| > 0 && IsStripSpace(s[0]) {
      TrimStartSpec(s[1..]);
      var r := TrimStart(s[1..]);
      assert s[1..][|s| - 1 - |r|..] == s[|s| - |r|..];
      forall i | 0 <= i < |s| - |r|
        ensures IsStripSpace(s[i])
      {
        if i > 0 {
          assert s[i] == s[1..][..|s| - 1 - |r|][i - 1];
        }
      }
    }
  }

  /** `TrimEnd(s)` is the prefix of `s` left once the trailing strip-space run is
      gone: what it drops is strip-space, and it does not end with strip-space. */
  lemma {:induction false} TrimEndSpec(s: string)
    ensures var r := TrimEnd(s);
            |r| <= |s| && r == s[..|r|] && AllStripSpace(s[|r|..]) &&
            (|r| > 0 ==> !IsStripSpace(r[|r| - 1]))
    decreases |s|
  {
    if |s| > 0 && IsStripSpace(s[|s| - 1]) {
      var u := s[..|s| - 1];
      TrimEndSpec(u);
      var r := TrimEnd(u);
      assert u[..|r|] == s[..|r|];
      forall i | |r| <= i < |s|
        ensures IsStripSpace(s[i])
      {
        if i < |s| - 1 {
          assert s[i] == u[|r|..][i - |r|];
        }
      }
    }
  }

  /** `Strip(s)` is a trimmed piece of `s` cut out between two strip-space runs. */
  lemma StripSpec(s: string)
    ensures var r := Strip(s);
            var k := |s| - |TrimStart(s)|;
            0 <= k && k + |r| <= |s| && Trimmed(r) && r == s[k..k + |r|] &&
            AllStripSpace(s[..k]) && AllStripSpace(s[k + |r|..])
  {
    TrimStartSpec(s);
    var t := TrimStart(s);
    TrimEndSpec(t);
    var r := TrimEnd(t);
    var k := |s| - |t|;
    assert r == s[k..k + |r|];
    assert s[k + |r|..] == t[|r|..];
    if |r| > 0 {
      assert r[0] == t[0];
    }
  }

  lemma {:induction false} TrimStartPadded(a: string, u: string)
    requires AllStripSpace(a)
    requires |u| == 0 || !IsStripSpace(u[0])
    ensures TrimStart(a + u) == u
    decreases |a|
  {
    if |a| > 0 {
      assert (a + u)[1..] == a[1..] + u;
      TrimStartPadded(a[1..], u);
    } else {
      assert a + u == u;
    }
  }

  lemma {:induction false} TrimEndPadded(u: string, b: string)
    requires AllStripSpace(b)
    requires |u| == 0 || !IsStripSpace(u[|u| - 1])
    ensures TrimEnd(u + b) == u
    decreases |b|
  {
    if |b| > 0 {
      assert (u + b)[..|u + b| - 1] == u + b[..|b| - 1];
      TrimEndPadded(u, b[..|b| - 1]);
    } else {
      assert u + b == u;
    }
  }

  /** `strip` removes exactly the padding around an already trimmed text. */
  lemma StripPadded(a: string, t: string, b: string)
    requires AllStripSpace(a) && AllStripSpace(b) && Trimmed(t)
    ensures Strip(a + t + b) == t
  {
    if |t| == 0 {
      assert a + t + b == (a + b) + "";
      TrimStartPadded(a + b, "");
    } else {
      assert a + t + b == a + (t + b);
      TrimStartPadded(a, t + b);
      TrimEndPadded(t, b);
    }
  }

  /** `strip` only removes characters. */
  lemma StripWithin(s: string, c: char)
    requires c !in s
    ensures c !in Strip(s)
  {
    StripSpec(s);
    var r := Strip(s);
    var k := |s| - |TrimStart(s)|;
    assert forall i :: 0 <= i < |r| ==> r[i] == s[k + i];
  }

  /** `strip` is idempotent. */
  lemma StripIdempotent(s: string)
    ensures Strip(Strip(s)) == Strip(s)
  {
    var r := Strip(s);
    StripSpec(s);
    assert r == "" + r + "";
    StripPadded("", r, "");
  }

  // ---------------------------------------------------------------- split on one character

  /** The pieces of `s` between occurrences of `sep`, empty pieces included:
      Ruby's `split(sep)` before it drops trailing empty pieces. */
  function Fields(s: string, sep: char): (r: seq<string>)
    ensures |r| >= 1
    ensures forall i :: 0 <= i < |r| ==> sep !in r[i]
  {
    if |s| == 0 then [""]
    else
      var rest := Fields(s[1..], sep);
      if s[0] == sep then [""] + rest
      else [[s[0]] + rest[0]] + rest[1..]
  }

  /** `parts.join(sep)`. */
  function Join(parts: seq<string>, sep: char): string
  {
    if |parts| == 0 then ""
    else if |parts| == 1 then parts[0]
    else parts[0] + [sep] + Join(parts[1..], sep)
  }

  function DropTrailingEmpty(parts: seq<string>): (r: seq<string>)
    ensures |r| <= |parts| && r == parts[..|r|]
    ensures |r| == 0 || r[|r| - 1] != ""
    ensures forall i :: |r| <= i < |parts| ==> parts[i] == ""
  {
    if |parts| > 0 && parts[|parts| - 1] == "" then DropTrailingEmpty(parts[..|parts| - 1]) else parts
  }

  /** `String#split("\n")`: the lines of `text`, trailing empty lines dropped. */
  function SplitLines(text: string): (lines: seq<string>)
    ensures forall i :: 0 <= i < |lines| ==> '\n' !in lines[i]
    ensures |lines| == 0 || lines[|lines| - 1] != ""
  {
    DropTrailingEmpty(Fields(text, '\n'))
  }

  lemma JoinConsHead(c: char, p: seq<string>, sep: char)
    requires |p| >= 1
    ensures Join([[c] + p[0]] + p[1..], sep) == [c] + Join(p, sep)
  {
    var q := [[c] + p[0]] + p[1..];
    if |p| > 1 {
      assert q[1..] == p[1..];
    }
  }

  /** Joining the pieces back with the separator gives the original text. */
  lemma {:induction false} JoinFields(s: string, sep: char)
    ensures Join(Fields(s, sep), sep) == s
    decreases |s|
  {
    if |s| > 0 {
      var rest := Fields(s[1..], sep);
      JoinFields(s[1..], sep);
      if s[0] == sep {
        assert ([""] + rest)[1..] == rest;
        assert s == [sep] + s[1..];
      } else {
        JoinConsHead(s[0], rest, sep);
        assert s == [s[0]] + s[1..];
      }
    }
  }

  lemma {:induction false} FieldsWithout(a: string, sep: char)
    requires sep !in a
    ensures Fields(a, sep) == [a]
    decreases |a|
  {
    if |a| > 0 {
      FieldsWithout(a[1..], sep);
      assert a == [a[0]] + a[1..];
    }
  }

  lemma {:induction false} FieldsSplitHead(a: string, b: string, sep: char)
    requires sep !in a
    ensures Fields(a + [sep] + b, sep) == [a] + Fields(b, sep)
    decreases |a|
  {
    var s := a + [sep] + b;
    if |a| == 0 {
      assert s[1..] == b;
    } else {
      assert s[1..] == a[1..] + [sep] + b;
      FieldsSplitHead(a[1..], b, sep);
      assert a == [a[0]] + a[1..];
    }
  }

  /** Splitting a join gives the pieces back when no piece holds the separator. */
  lemma {:induction false} FieldsJoin(parts: seq<string>, sep: char)
    requires |parts| >= 1
    requires forall i :: 0 <= i < |parts| ==> sep !in parts[i]
    ensures Fields(Join(parts, sep), sep) == parts
    decreases |parts|
  {
    if |parts| == 1 {
      FieldsWithout(parts[0], sep);
    } else {
      FieldsSplitHead(parts[0], Join(parts[1..], sep), sep);
      FieldsJoin(parts[1..], sep);
      assert parts == [parts[0]] + parts[1..];
    }
  }

  /** `lines.join("\n").split("\n") == lines` for lines without newlines whose last is not empty. */
  lemma SplitLinesJoin(lines: seq<string>)
    requires forall i :: 0 <= i < |lines| ==> '\n' !in lines[i]
    requires |lines| == 0 || lines[|lines| - 1] != ""
    ensures SplitLines(Join(lines, '\n')) == lines
  {
    if |lines| > 0 {
      FieldsJoin(lines, '\n');
    }
  }

  /** Joining with one more, empty, piece ends the text with the separator. */
  lemma {:induction false} JoinSnocEmpty(parts: seq<string>, sep: char)
    requires |parts| >= 1
    ensures Join(parts + [""], sep) == Join(parts, sep) + [sep]
    decreases |parts|
  {
    var q := parts + [""];
    if |parts| == 1 {
      assert q[1..] == [""];
    } else {
      assert q[1..] == parts[1..] + [""];
      JoinSnocEmpty(parts[1..], sep);
      ConcatAssoc(parts[0] + [sep], Join(parts[1..], sep), [sep]);
    }
  }

  /** `(lines.join("\n") + "\n").split("\n") == lines`: a text that ends every line,
      the last one included, with a newline splits back into its lines. */
  lemma SplitLinesJoinNewline(lines: seq<string>)
    requires forall i :: 0 <= i < |lines| ==> '\n' !in lines[i]
    requires |lines| == 0 || lines[|lines| - 1] != ""
    ensures SplitLines(Join(lines, '\n') + "\n") == lines
  {
    var ps := lines + [""];
    var text := Join(lines, '\n') + "\n";
    if |lines| == 0 {
      assert text == [] + ['\n'] + [];
      FieldsSplitHead([], [], '\n');
      assert Fields(text, '\n') == [""] + ps;
      assert ["", ""][..1] == [""] && [""][..0] == [];
    } else {
      JoinSnocEmpty(lines, '\n');
      FieldsJoin(ps, '\n');
      DropOneEmpty(lines);
    }
  }

  /** Ruby drops the empty piece a final separator leaves, and nothing before it. */
  lemma DropOneEmpty(parts: seq<string>)
    requires |parts| == 0 || parts[|parts| - 1] != ""
    ensures DropTrailingEmpty(parts + [""]) == parts
  {
    var ps := parts + [""];
    assert ps[..|ps| - 1] == parts;
  }

  // ---------------------------------------------------------------- split(':', 2)

  /** What `s.split(sep, 2)` returns: no pieces for the empty string, the whole
      string when `sep` does not occur, otherwise the text before and after its
      first occurrence. */
  datatype Halves = NoPieces | Whole(text: string) | Pair(head: string, tail: string)

  function SplitOnce(s: string, sep: char): Halves
  {
    if |s| == 0 then NoPieces
    else if s[0] == sep then Pair("", s[1..])
    else match SplitOnce(s[1..], sep)
      case Pair(a, b) => Pair([s[0]] + a, b)
      case _ => Whole(s)
  }

  /** No pieces exactly for the empty string; the whole string exactly when the
      separator is absent; otherwise a head free of the separator, the separator,
      and the tail. */
  lemma {:induction false} SplitOnceSpec(s: string, sep: char)
    ensures var h := SplitOnce(s, sep);
            (h.NoPieces? <==> |s| == 0) &&
            (h.Whole? <==> |s| > 0 && sep !in s) &&
            (h.Whole? ==> h.text == s) &&
            (h.Pair? ==> sep !in h.head && s == h.head + [sep] + h.tail)
    decreases |s|
  {
    if |s| > 0 && s[0] != sep {
      SplitOnceSpec(s[1..], sep);
      assert s == [s[0]] + s[1..];
      match SplitOnce(s[1..], sep)
      case Pair(a, b) =>
        ConcatAssoc([s[0]], a + [sep], b);
        ConcatAssoc([s[0]], a, [sep]);
      case _ =>
    } else if |s| > 0 {
      assert s == [] + [sep] + s[1..];
    }
  }

  /** The split happens at the first separator, whatever follows it. */
  lemma {:induction false} SplitOnceAt(a: string, b: string, sep: char)
    requires sep !in a
    ensures SplitOnce(a + [sep] + b, sep) == Pair(a, b)
    decreases |a|
  {
    var s := a + [sep] + b;
    if |a| == 0 {
      assert s[1..] == b;
    } else {
      assert s[1..] == a[1..] + [sep] + b;
      SplitOnceAt(a[1..], b, sep);
      assert a == [a[0]] + a[1..];
    }
  }

  // ---------------------------------------------------------------- split(/\s+/)

  /** The pieces of `s` between maximal runs of `\s`, before Ruby drops the trailing
      empty pieces; a leading run gives a leading empty piece. */
  function Runs(s: string): (r: seq<string>)
    ensures |r| >= 1
    ensures forall i :: 0 <= i < |r| ==> NoSpace(r[i])
    ensures |s| > 0 && !IsSpace(s[0]) ==> r[0] != ""
    ensures forall i :: 0 < i < |r| - 1 ==> r[i] != ""
  {
    if |s| == 0 then [""]
    else if IsSpace(s[0]) then
      if |s| > 1 && IsSpace(s[1]) then Runs(s[1..]) else [""] + Runs(s[1..])
    else
      var rest := Runs(s[1..]);
      [[s[0]] + rest[0]] + rest[1..]
  }

  /** `String#split(/\s+/)`. */
  function SplitWords(s: string): (words: seq<string>)
    ensures forall i :: 0 <= i < |words| ==> NoSpace(words[i])
    ensures forall i :: 0 < i < |words| ==> words[i] != ""
  {
    DropTrailingEmpty(Runs(s))
  }

  /** Words separated by non-empty whitespace gaps: `gaps[i]` sits between `words[i]` and `words[i + 1]`. */
  function Spaced(words: seq<string>, gaps: seq<string>): (s: string)
    requires |words| == 0 || |gaps| == |words| - 1
    ensures |words| > 0 && |words[0]| > 0 ==> |s| > 0 && s[0] == words[0][0]
    ensures |words| > 0 && |words[|words| - 1]| > 0 ==>
              |s| > 0 && s[|s| - 1] == words[|words| - 1][|words[|words| - 1]| - 1]
  {
    if |words| == 0 then ""
    else if |words| == 1 then words[0]
    else words[0] + gaps[0] + Spaced(words[1..], gaps[1..])
  }

  /** Laying words out with gaps adds no character that neither the words nor the gaps hold. */
  lemma {:induction false} SpacedWithout(words: seq<string>, gaps: seq<string>, c: char)
    requires |words| == 0 || |gaps| == |words| - 1
    requires forall i :: 0 <= i < |words| ==> c !in words[i]
    requires forall i :: 0 <= i < |gaps| ==> c !in gaps[i]
    ensures c !in Spaced(words, gaps)
    decreases |words|
  {
    if |words| > 1 {
      SpacedWithout(words[1..], gaps[1..], c);
    }
  }

  lemma {:induction false} RunsWord(a: string)
    requires |a| > 0 && NoSpace(a)
    ensures Runs(a) == [a]
    decreases |a|
  {
    if |a| > 1 {
      RunsWord(a[1..]);
      assert a == [a[0]] + a[1..];
    } else {
      assert Runs(a[1..]) == [""];
      assert a == [a[0]] + "";
    }
  }

  lemma {:induction false} RunsGap(g: string, b: string)
    requires |g| > 0 && AllSpace(g)
    requires |b| > 0 && !IsSpace(b[0])
    ensures Runs(g + b) == [""] + Runs(b)
    decreases |g|
  {
    var s := g + b;
    assert s[1..] == g[1..] + b;
    if |g| > 1 {
      RunsGap(g[1..], b);
    }
  }

  lemma {:induction false} RunsSplitHead(a: string, g: string, b: string)
    requires |a| > 0 && NoSpace(a)
    requires |g| > 0 && AllSpace(g)
    requires |b| > 0 && !IsSpace(b[0])
    ensures Runs(a + g + b) == [a] + Runs(b)
    decreases |a|
  {
    var s := a + g + b;
    assert s[1..] == a[1..] + g + b;
    if |a| == 1 {
      assert s[1..] == g + b;
      RunsGap(g, b);
      assert Runs(s[1..]) == [""] + Runs(b);
      assert a == [a[0]] + "";
    } else {
      RunsSplitHead(a[1..], g, b);
      assert a == [a[0]] + a[1..];
    }
  }

  /** Splitting whitespace-separated words gives the words back, whatever the gaps. */
  lemma {:induction false} SplitWordsSpaced(words: seq<string>, gaps: seq<string>)
    requires |words| == 0 || |gaps| == |words| - 1
    requires forall i :: 0 <= i < |words| ==> |words[i]| > 0 && NoSpace(words[i])
    requires forall i :: 0 <= i < |gaps| ==> |gaps[i]| > 0 && AllSpace(gaps[i])
    ensures SplitWords(Spaced(words, gaps)) == words
  {
    if |words| > 0 {
      RunsSpaced(words, gaps);
    }
  }

  lemma {:induction false} RunsSpaced(words: seq<string>, gaps: seq<string>)
    requires |words| > 0 && |gaps| == |words| - 1
    requires forall i :: 0 <= i < |words| ==> |words[i]| > 0 && NoSpace(words[i])
    requires forall i :: 0 <= i < |gaps| ==> |gaps[i]| > 0 && AllSpace(gaps[i])
    ensures Runs(Spaced(words, gaps)) == words
    decreases |words|
  {
    if |words| == 1 {
      RunsWord(words[0]);
    } else {
      var rest := Spaced(words[1..], gaps[1..]);
      assert words[1..][0] == words[1];
      RunsSplitHead(words[0], gaps[0], rest);
      RunsSpaced(words[1..], gaps[1..]);
      assert words == [words[0]] + words[1..];
    }
  }

  // ---------------------------------------------------------------- to_i

  function DigitValue(c: char): nat
    requires IsDigit(c)
  {
    (c as int) - ('0' as int)
  }

  /** Continues a run of decimal digits with the value `acc` read so far: a digit
      extends it, one underscore between two digits is skipped, anything else ends it. */
  function DigitRun(s: string, acc: nat): nat
  {
    if |s| == 0 then acc
    else if IsDigit(s[0]) then DigitRun(s[1..], acc * 10 + DigitValue(s[0]))
    else if s[0] == '_' && |s| > 1 && IsDigit(s[1]) then DigitRun(s[1..], acc)
    else acc
  }

  /** The value of the digits `s` starts with; 0 when it does not start with a digit. */
  function Unsigned(s: string): nat
  {
    if |s| > 0 && IsDigit(s[0]) then DigitRun(s, 0) else 0
  }

  function SkipSpace(s: string): string
  {
    if |s| > 0 && IsSpace(s[0]) then SkipSpace(s[1..]) else s
  }

  /** `String#to_i`: leading whitespace, an optional sign, then decimal digits; never fails. */
  function ToI(s: string): int
  {
    var t := SkipSpace(s);
    if |t| > 0 && t[0] == '-' then -(Unsigned(t[1..]) as int)
    else if |t| > 0 && t[0] == '+' then Unsigned(t[1..])
    else Unsigned(t)
  }

  function DigitChar(d: nat): (c: char)
    requires d < 10
    ensures IsDigit(c) && DigitValue(c) == d
  {
    ('0' as int + d) as char
  }

  /** The decimal numeral of `n`, as Ruby's `Integer#to_s` writes it. */
  function ShowNat(n: nat): (s: string)
    ensures |s| > 0 && AllDigits(s)
  {
    if n < 10 then [DigitChar(n)] else ShowNat(n / 10) + [DigitChar(n % 10)]
  }

  function ShowInt(n: int): (s: string)
    ensures |s| > 0
  {
    if n < 0 then "-" + ShowNat(-n) else ShowNat(n)
  }

  lemma {:induction false} DigitRunSnoc(a: string, c: char, acc: nat)
    requires AllDigits(a) && IsDigit(c)
    ensures DigitRun(a + [c], acc) == DigitRun(a, acc) * 10 + DigitValue(c)
    decreases |a|
  {
    if |a| > 0 {
      assert (a + [c])[1..] == a[1..] + [c];
      DigitRunSnoc(a[1..], c, acc * 10 + DigitValue(a[0]));
    } else {
      assert (a + [c])[1..] == [];
    }
  }

  lemma {:induction false} UnsignedShowNat(n: nat)
    ensures Unsigned(ShowNat(n)) == n
    decreases n
  {
    if n >= 10 {
      UnsignedShowNat(n / 10);
      var a := ShowNat(n / 10);
      DigitRunSnoc(a, DigitChar(n % 10), 0);
    } else {
      assert DigitRun([DigitChar(n)][1..], DigitValue(DigitChar(n))) == n;
    }
  }

  /** `n.to_s.to_i == n`. */
  lemma ToIShowInt(n: int)
    ensures ToI(ShowInt(n)) == n
  {
    var s := ShowInt(n);
    if n < 0 {
      UnsignedShowNat(-n);
      assert s[1..] == ShowNat(-n);
    } else {
      UnsignedShowNat(n);
    }
  }

  /** A numeral holds neither whitespace nor anything `strip` removes. */
  lemma ShowIntPlain(n: int)
    ensures NoSpace(ShowInt(n))
    ensures !IsStripSpace(ShowInt(n)[0]) && !IsStripSpace(ShowInt(n)[|ShowInt(n)| - 1])
  {
    var s := ShowInt(n);
    if n < 0 {
      var d := ShowNat(-n);
      assert forall i :: 1 <= i < |s| ==> s[i] == d[i - 1];
    }
  }
}

=== FILE: sampler.dfy ===
/**
  The parsing half of `build_report`: the counter table is split into lines, the
  two header lines are dropped, and each remaining line gives an interface name
  and, when the name passes the interface filter, the four counters the plugin
  tracks. The filter (a regular expression in the plugin) is the predicate
  `matches`.
 */
module Sampler {
  import opened Optional
  import opened RubyString
  import opened Sequences

  /** One interface's counters as read from its line: received bytes and packets
      (columns 0 and 1) and transmitted bytes and packets (columns 8 and 9). */
  datatype Sample = Sample(name: string, inBytes: int, inPackets: int, outBytes: int, outPackets: int)

  /** Why reading the table raised: the text has fewer than two lines, so
      `split("\n")[2..-1]` is nil; or a matching line has no ':', so its column
      text is nil. */
  datatype Crash = NoTable | NoColumns(line: string)

  /** What one line contributes. Every line contributes its name; a matching line
      also a sample, or a crash when there is nothing after the name. */
  datatype LineResult = Unmatched(name: string) | Matched(sample: Sample) | Unreadable(name: string)

  function NameOf(r: LineResult): string {
    match r
    case Unmatched(n) => n
    case Matched(s) => s.name
    case Unreadable(n) => n
  }

  /** `cols.values_at(i)` followed by `to_i`: a missing column is nil, and nil.to_i is 0. */
  function Column(cols: seq<string>, i: nat): int {
    if i < |cols| then ToI(cols[i]) else 0
  }

  /** One data line. An empty line splits into nothing, so its name is nil: it is
      listed as "" (which is how nil joins) and never matches. */
  function ReadLine(line: string, matches: string -> bool): LineResult
  {
    match SplitOnce(line, ':')
    case NoPieces => Unmatched("")
    case Whole(text) =>
      var name := Strip(text);
      if matches(name) then Unreadable(name) else Unmatched(name)
    case Pair(head, tail) =>
      var name := Strip(head);
      if !matches(name) then Unmatched(name)
      else
        var cols := SplitWords(Strip(tail));
        Matched(Sample(name, Column(cols, 0), Column(cols, 1), Column(cols, 8), Column(cols, 9)))
  }

  /** A line yields a sample exactly when it has a colon and its name matches; it
      is unreadable exactly when it is not empty, has no colon, and its name (the
      whole line, stripped) matches; an empty line is an unmatched "". */
  lemma ReadLineCases(line: string, matches: string -> bool)
    ensures var r := ReadLine(line, matches);
            (r.Matched? <==> ':' in line && matches(NameOf(r))) &&
            (r.Unreadable? <==> |line| > 0 && ':' !in line && matches(NameOf(r))) &&
            (|line| == 0 ==> r == Unmatched("")) &&
            (|line| > 0 && ':' !in line ==> NameOf(r) == Strip(line))
  {
    SplitOnceSpec(line, ':');
  }

  /** A line with a colon is recorded under its text before the first colon, stripped,
      whether or not that name matches; this is the name "No interfaces found" lists. */
  lemma ReadLineName(head: string, tail: string, matches: string -> bool)
    requires ':' !in head
    ensures NameOf(ReadLine(head + ":" + tail, matches)) == Strip(head)
  {
    SplitOnceAt(head, tail, ':');
    assert head + ":" + tail == head + [':'] + tail;
  }

  /** The line the kernel writes for an interface: padding, the name, a colon, then
      the counters separated by runs of whitespace. */
  function CounterLine(pad: string, name: string, lead: string, counters: seq<int>, gaps: seq<string>,
                       trail: string): string
    requires |counters| == 0 || |gaps| == |counters| - 1
  {
    pad + name + ":" + lead + Spaced(Numerals(counters), gaps) + trail
  }

  function Numerals(counters: seq<int>): (words: seq<string>)
    ensures |words| == |counters|
    ensures forall i :: 0 <= i < |counters| ==> words[i] == ShowInt(counters[i])
  {
    if |counters| == 0 then [] else [ShowInt(counters[0])] + Numerals(counters[1..])
  }

  /** Counter `i`, or 0 when the line stops before it. */
  function CounterAt(counters: seq<int>, i: nat): int {
    if i < |counters| then counters[i] else 0
  }

  /** Reading a line the kernel wrote for a matching interface gives back its name
      and counters 0, 1, 8 and 9; a line that stops early reads 0 for the rest. */
  lemma ReadCounterLine(pad: string, name: string, lead: string, counters: seq<int>, gaps: seq<string>,
                        trail: string, matches: string -> bool)
    requires AllStripSpace(pad) && AllStripSpace(lead) && AllStripSpace(trail)
    requires Trimmed(name) && ':' !in name && matches(name)
    requires |counters| == 0 || |gaps| == |counters| - 1
    requires forall i :: 0 <= i < |gaps| ==> |gaps[i]| > 0 && AllSpace(gaps[i])
    ensures ReadLine(CounterLine(pad, name, lead, counters, gaps, trail), matches)
         == Matched(Sample(name, CounterAt(counters, 0), CounterAt(counters, 1),
                           CounterAt(counters, 8), CounterAt(counters, 9)))
  {
    var rest := lead + Spaced(Numerals(counters), gaps) + trail;
    var line := CounterLine(pad, name, lead, counters, gaps, trail);
    assert line == (pad + name) + [':'] + rest;
    NameField(pad, name, rest);
    CounterFields(lead, counters, gaps, trail);
    ReadPair(line, pad + name, rest, matches);
    NumeralColumns(counters, 0);
    NumeralColumns(counters, 1);
    NumeralColumns(counters, 8);
    NumeralColumns(counters, 9);
  }

  /** A kernel-style line is one line of the table: it is not empty, and it holds
      no newline when its padding, name and gaps hold none. */
  lemma CounterLineIsOneLine(pad: string, name: string, lead: string, counters: seq<int>, gaps: seq<string>,
                             trail: string)
    requires |counters| == 0 || |gaps| == |counters| - 1
    requires '\n' !in pad && '\n' !in name && '\n' !in lead && '\n' !in trail
    requires forall i :: 0 <= i < |gaps| ==> '\n' !in gaps[i]
    ensures var line := CounterLine(pad, name, lead, counters, gaps, trail);
            line != "" && '\n' !in line
  {
    var words := Numerals(counters);
    forall i | 0 <= i < |words|
      ensures '\n' !in words[i]
    {
      ShowIntPlain(counters[i]);
    }
    SpacedWithout(words, gaps, '\n');
    assert CounterLine(pad, name, lead, counters, gaps, trail)[|pad + name|] == ':';
  }

  /** A matching line with a colon is read from its two stripped halves. */
  lemma ReadPair(line: string, head: string, tail: string, matches: string -> bool)
    requires SplitOnce(line, ':') == Pair(head, tail) && matches(Strip(head))
    ensures var cols := SplitWords(Strip(tail));
            (ReadLine(line, matches) ==
             Matched(Sample(Strip(head), Column(cols, 0), Column(cols, 1), Column(cols, 8), Column(cols, 9))))
  {
  }

  /** The part before the colon is the padded name, and strips to the name. */
  lemma NameField(pad: string, name: string, rest: string)
    requires AllStripSpace(pad) && Trimmed(name) && ':' !in name
    ensures SplitOnce((pad + name) + [':'] + rest, ':') == Pair(pad + name, rest)
    ensures Strip(pad + name) == name
  {
    assert ':' !in pad + name by {
      forall i | 0 <= i < |pad + name|
        ensures (pad + name)[i] != ':'
      {
        if i < |pad| {
          assert IsStripSpace(pad[i]);
        } else {
          assert (pad + name)[i] == name[i - |pad|];
        }
      }
    }
    SplitOnceAt(pad + name, rest, ':');
    assert pad + name == pad + name + "";
    StripPadded(pad, name, "");
  }

  /** The part after the colon strips and splits into the counters' numerals. */
  lemma CounterFields(lead: string, counters: seq<int>, gaps: seq<string>, trail: string)
    requires AllStripSpace(lead) && AllStripSpace(trail)
    requires |counters| == 0 || |gaps| == |counters| - 1
    requires forall i :: 0 <= i < |gaps| ==> |gaps[i]| > 0 && AllSpace(gaps[i])
    ensures SplitWords(Strip(lead + Spaced(Numerals(counters), gaps) + trail)) == Numerals(counters)
  {
    var words := Numerals(counters);
    var body := Spaced(words, gaps);
    forall i | 0 <= i < |words|
      ensures |words[i]| > 0 && NoSpace(words[i])
    {
      ShowIntPlain(counters[i]);
    }
    assert Trimmed(body) by {
      if |words| > 0 {
        ShowIntPlain(counters[0]);
        ShowIntPlain(counters[|counters| - 1]);
      }
    }
    StripPadded(lead, body, trail);
    SplitWordsSpaced(words, gaps);
  }

  lemma NumeralColumns(counters: seq<int>, i: nat)
    ensures Column(Numerals(counters), i) == CounterAt(counters, i)
  {
    if i < |counters| {
      ToIShowInt(counters[i]);
    }
  }

  /** A name is cut out of its line: a character missing from the line is missing from it. */
  lemma NameWithinLine(line: string, matches: string -> bool, c: char)
    requires c !in line
    ensures c !in NameOf(ReadLine(line, matches))
  {
    SplitOnceSpec(line, ':');
    match SplitOnce(line, ':')
    case NoPieces =>
    case Whole(w) => StripWithin(w, c);
    case Pair(h, t) =>
      assert forall i :: 0 <= i < |h| ==> h[i] == line[i];
      StripWithin(h, c);
  }

  /** What reading the data lines yields: every name in order, the samples of the
      matching lines in order, and the crash that stopped the reading, if any. */
  datatype Table = Table(names: seq<string>, samples: seq<Sample>, crash: Option<Crash>)

  /** What each line contributes, line by line. */
  function LineResults(lines: seq<string>, matches: string -> bool): (rs: seq<LineResult>)
    ensures |rs| == |lines|
    ensures forall i :: 0 <= i < |lines| ==> rs[i] == ReadLine(lines[i], matches)
  {
    seq(|lines|, i requires 0 <= i < |lines| => ReadLine(lines[i], matches))
  }

  lemma LineResultsAppend(a: seq<string>, b: seq<string>, matches: string -> bool)
    ensures LineResults(a + b, matches) == LineResults(a, matches) + LineResults(b, matches)
  {
    var ra := LineResults(a, matches);
    var rb := LineResults(b, matches);
    var rab := LineResults(a + b, matches);
    forall i | 0 <= i < |a + b|
      ensures rab[i] == (ra + rb)[i]
    {
      if i < |a| {
        assert (a + b)[i] == a[i];
      } else {
        assert (a + b)[i] == b[i - |a|];
      }
    }
  }

  /** The loop of `build_report` over the data lines, given what each line contributes:
      names are collected, samples kept, and the first unreadable line ends it all. */
  function Gather(lines: seq<string>, rs: seq<LineResult>): (t: Table)
    requires |rs| == |lines|
    ensures |t.names| <= |lines|
    ensures t.crash.None? ==> |t.names| == |lines|
    ensures t.crash != Some(NoTable)
    decreases |lines|
  {
    if |lines| == 0 then Table([], [], None)
    else
      match rs[0]
      case Unreadable(name) => Table([name], [], Some(NoColumns(lines[0])))
      case Unmatched(name) =>
        var rest := Gather(lines[1..], rs[1..]);
        Table([name] + rest.names, rest.samples, rest.crash)
      case Matched(s) =>
        var rest := Gather(lines[1..], rs[1..]);
        Table([s.name] + rest.names, [s] + rest.samples, rest.crash)
  }

  /** The loop of `build_report` over the data lines, as far as parsing goes. */
  function ReadLines(lines: seq<string>, matches: string -> bool): Table
  {
    Gather(lines, LineResults(lines, matches))
  }

  lemma {:induction false} GatherNames(lines: seq<string>, rs: seq<LineResult>)
    requires |rs| == |lines|
    ensures var t := Gather(lines, rs);
            forall i :: 0 <= i < |t.names| ==> t.names[i] == NameOf(rs[i])
    ensures var t := Gather(lines, rs);
            t.crash.Some? ==> |t.names| > 0 && t.crash == Some(NoColumns(lines[|t.names| - 1]))
                              && rs[|t.names| - 1].Unreadable?
    decreases |lines|
  {
    if |lines| > 0 {
      GatherNames(lines[1..], rs[1..]);
      var t := Gather(lines, rs);
      var rest := Gather(lines[1..], rs[1..]);
      if !rs[0].Unreadable? {
        assert t.names == [NameOf(rs[0])] + rest.names;
        assert t.crash == rest.crash;
        forall i | 1 <= i < |t.names|
          ensures t.names[i] == NameOf(rs[i])
        {
          assert t.names[i] == rest.names[i - 1];
          assert rs[1..][i - 1] == rs[i];
        }
        if t.crash.Some? {
          assert lines[1..][|rest.names| - 1] == lines[|t.names| - 1];
          assert rs[1..][|rest.names| - 1] == rs[|t.names| - 1];
        }
      }
    }
  }

  lemma {:induction false} GatherCrash(lines: seq<string>, rs: seq<LineResult>)
    requires |rs| == |lines|
    ensures Gather(lines, rs).crash.None? <==> forall i :: 0 <= i < |rs| ==> !rs[i].Unreadable?
    decreases |lines|
  {
    if |lines| > 0 {
      GatherCrash(lines[1..], rs[1..]);
      assert forall i :: 1 <= i < |rs| ==> rs[i] == rs[1..][i - 1];
    }
  }

  lemma {:induction false} GatherFound(lines: seq<string>, rs: seq<LineResult>)
    requires |rs| == |lines|
    ensures var t := Gather(lines, rs);
            t.crash.None? ==> (|t.samples| == 0 <==> forall i :: 0 <= i < |rs| ==> !rs[i].Matched?)
    ensures var t := Gather(lines, rs);
            forall j :: 0 <= j < |t.samples| ==> exists i :: 0 <= i < |rs| && rs[i] == Matched(t.samples[j])
    decreases |lines|
  {
    if |lines| > 0 {
      GatherFound(lines[1..], rs[1..]);
      var t := Gather(lines, rs);
      var rest := Gather(lines[1..], rs[1..]);
      assert forall i :: 1 <= i < |rs| ==> rs[i] == rs[1..][i - 1];
      forall j | 0 <= j < |t.samples|
        ensures exists i :: 0 <= i < |rs| && rs[i] == Matched(t.samples[j])
      {
        if rs[0].Matched? && j == 0 {
          assert rs[0] == Matched(t.samples[0]);
        } else {
          var j' := if rs[0].Matched? then j - 1 else j;
          assert t.samples[j] == rest.samples[j'];
          var i' :| 0 <= i' < |rs[1..]| && rs[1..][i'] == Matched(rest.samples[j']);
          assert rs[i' + 1] == Matched(t.samples[j]);
        }
      }
    }
  }

  lemma {:induction false} GatherAppend(a: seq<string>, ra: seq<LineResult>, b: seq<string>, rb: seq<LineResult>)
    requires |ra| == |a| && |rb| == |b|
    requires Gather(a, ra).crash.None?
    ensures var ta := Gather(a, ra);
            var tb := Gather(b, rb);
            Gather(a + b, ra + rb) == Table(ta.names + tb.names, ta.samples + tb.samples, tb.crash)
    decreases |a|
  {
    if |a| == 0 {
      assert a + b == b;
      assert ra + rb == rb;
    } else {
      GatherAppend(a[1..], ra[1..], b, rb);
      GatherStep(a, ra);
      assert (a + b)[1..] == a[1..] + b;
      assert (ra + rb)[1..] == ra[1..] + rb;
      GatherStep(a + b, ra + rb);
      var c := Contribution(a[0], ra[0]);
      var ta' := Gather(a[1..], ra[1..]);
      var tb := Gather(b, rb);
      ConcatAssoc(c.names, ta'.names, tb.names);
      ConcatAssoc(c.samples, ta'.samples, tb.samples);
    }
  }

  /** A readable first line contributes its part before the rest is gathered. */
  lemma GatherStep(lines: seq<string>, rs: seq<LineResult>)
    requires |rs| == |lines| && |lines| > 0 && !rs[0].Unreadable?
    ensures var c := Contribution(lines[0], rs[0]);
            var rest := Gather(lines[1..], rs[1..]);
            Gather(lines, rs) == Table(c.names + rest.names, c.samples + rest.samples, rest.crash)
  {
  }

  lemma {:induction false} GatherStops(a: seq<string>, ra: seq<LineResult>, b: seq<string>, rb: seq<LineResult>)
    requires |ra| == |a| && |rb| == |b|
    requires Gather(a, ra).crash.Some?
    ensures Gather(a + b, ra + rb) == Gather(a, ra)
    decreases |a|
  {
    assert (ra + rb)[0] == ra[0];
    assert (a + b)[0] == a[0];
    assert (a + b)[1..] == a[1..] + b;
    assert (ra + rb)[1..] == ra[1..] + rb;
    if !ra[0].Unreadable? {
      GatherStops(a[1..], ra[1..], b, rb);
    }
  }

  /** What one line contributes on its own. */
  function Contribution(line: string, r: LineResult): Table {
    match r
    case Unreadable(name) => Table([name], [], Some(NoColumns(line)))
    case Unmatched(name) => Table([name], [], None)
    case Matched(s) => Table([s.name], [s], None)
  }

  lemma GatherOne(line: string, r: LineResult)
    ensures Gather([line], [r]) == Contribution(line, r)
  {
    assert [line][1..] == [];
  }

  /** Every line read contributes its name, in file order, matching or not. */
  lemma ReadLinesNames(lines: seq<string>, matches: string -> bool)
    ensures var t := ReadLines(lines, matches);
            forall i :: 0 <= i < |t.names| ==> t.names[i] == NameOf(ReadLine(lines[i], matches))
  {
    var rs := LineResults(lines, matches);
    GatherNames(lines, rs);
    var t := Gather(lines, rs);
    forall i | 0 <= i < |t.names|
      ensures t.names[i] == NameOf(ReadLine(lines[i], matches))
    {
      assert t.names[i] == NameOf(rs[i]);
    }
  }

  /** Reading stops at the first unreadable line, which the crash names; it is the
      last line whose name was collected. */
  lemma ReadLinesStopLine(lines: seq<string>, matches: string -> bool)
    ensures var t := ReadLines(lines, matches);
            t.crash.Some? ==> |t.names| > 0 && t.crash == Some(NoColumns(lines[|t.names| - 1]))
                              && ReadLine(lines[|t.names| - 1], matches).Unreadable?
  {
    var rs := LineResults(lines, matches);
    GatherNames(lines, rs);
    var t := Gather(lines, rs);
    if t.crash.Some? {
      assert rs[|t.names| - 1] == ReadLine(lines[|t.names| - 1], matches);
    }
  }

  /** The reading crashes exactly when some line is unreadable. */
  lemma ReadLinesCrash(lines: seq<string>, matches: string -> bool)
    ensures ReadLines(lines, matches).crash.None? <==>
            forall i :: 0 <= i < |lines| ==> !ReadLine(lines[i], matches).Unreadable?
  {
    GatherCrash(lines, LineResults(lines, matches));
  }

  /** A crash-free reading has samples exactly when some line matched, and each
      sample is what a matching line gave. */
  lemma ReadLinesFound(lines: seq<string>, matches: string -> bool)
    ensures var t := ReadLines(lines, matches);
            t.crash.None? ==>
              (|t.samples| == 0 <==> forall i :: 0 <= i < |lines| ==> !ReadLine(lines[i], matches).Matched?)
    ensures var t := ReadLines(lines, matches);
            forall j :: 0 <= j < |t.samples| ==>
              exists i :: 0 <= i < |lines| && ReadLine(lines[i], matches) == Matched(t.samples[j])
  {
    GatherFound(lines, LineResults(lines, matches));
  }

  /** Reading proceeds line by line: a crash-free prefix and the rest read separately
      and put together give what reading them together gives. */
  lemma ReadLinesAppend(a: seq<string>, b: seq<string>, matches: string -> bool)
    requires ReadLines(a, matches).crash.None?
    ensures var ta := ReadLines(a, matches);
            var tb := ReadLines(b, matches);
            ReadLines(a + b, matches) == Table(ta.names + tb.names, ta.samples + tb.samples, tb.crash)
  {
    LineResultsAppend(a, b, matches);
    GatherAppend(a, LineResults(a, matches), b, LineResults(b, matches));
  }

  /** Nothing after the first unreadable line is read. */
  lemma ReadLinesStops(a: seq<string>, b: seq<string>, matches: string -> bool)
    requires ReadLines(a, matches).crash.Some?
    ensures ReadLines(a + b, matches) == ReadLines(a, matches)
  {
    LineResultsAppend(a, b, matches);
    GatherStops(a, LineResults(a, matches), b, LineResults(b, matches));
  }

  /** Reading a single line gives that line's contribution. */
  lemma ReadOneLine(line: string, matches: string -> bool)
    ensures ReadLines([line], matches) == Contribution(line, ReadLine(line, matches))
  {
    assert LineResults([line], matches) == [ReadLine(line, matches)];
    GatherOne(line, ReadLine(line, matches));
  }

  /** `%x(cat /proc/net/dev).split("\n")[2..-1]` followed by the loop. */
  function ReadTable(text: string, matches: string -> bool): (t: Table)
    ensures t.crash == Some(NoTable) <==> |SplitLines(text)| < 2
    ensures t.crash.None? ==> |t.names| == |SplitLines(text)| - 2
  {
    var all := SplitLines(text);
    if |all| < 2 then Table([], [], Some(NoTable)) else ReadLines(all[2..], matches)
  }

  /** A table of two header lines and one data line, each ending in a newline as the
      kernel writes them, reads as that data line alone. */
  lemma ReadTableOneLine(h1: string, h2: string, line: string, matches: string -> bool)
    requires '\n' !in h1 && '\n' !in h2 && '\n' !in line && line != ""
    ensures ReadTable(Join([h1, h2, line], '\n') + "\n", matches) == Contribution(line, ReadLine(line, matches))
  {
    var lines := [h1, h2, line];
    SplitLinesJoinNewline(lines);
    assert lines[2..] == [line];
    ReadOneLine(line, matches);
  }
}

=== FILE: sequences.dfy ===
/** Facts about sequences in general that the proofs of the other modules lean on. */
module Sequences {

  /** Concatenation is associative; stated as a lemma so that a proof can ask for
      one regrouping without the solver searching for it. */
  lemma ConcatAssoc<T>(x: seq<T>, y: seq<T>, z: seq<T>)
    ensures x + (y + z) == (x + y) + z
  {
  }
}
